=== FILE: README.md ===
# apa-summarizer, modelled in Dafny

apa-summarizer is a small Flask application for an animal shelter. A caseworker
uploads an animal's case file as a PDF. The application cuts the file into
sections at the horizontal rules drawn on its pages, cleans each section's text,
has a language model choose the sections worth summarising (two section titles
are always excluded), summarise those, then summarise the summaries. It shows
the result together with two lists: the titles that were summarised and the
titles that were not.

This project models the deterministic core of that pipeline and proves what it
does:

- **Text clean-up** (`parse_pdf.py`): `remove_after_substring`, and
  `clean_parsed_pdf` with its helpers `remove_page_numbers`, `remove_timestamps`,
  `remove_extra_whitespace` and `remove_regex`. Each `re.sub` call is modelled as
  Python performs it: a left-to-right scan that replaces the leftmost match,
  resumes after it, and copies a character where no match starts. The four
  patterns have their own matchers, including the `\b` anchors of the timestamp
  pattern and the backtracking of `\n\s*\n`, whose match ends at the last newline
  of a whitespace run.
- **Horizontal-line detection** (`parse_pdf.py`, lines 65-79): collect the
  straight-line drawing items whose end points differ in y by less than one unit,
  then sort them stably by start y.
- **Sectioning** (`extract_sections_by_horizontal_lines`): pages are cut into
  full-width bands at those lines. Each non-empty band is cleaned together with
  the text carried over so far and stored under its title, the first non-blank
  line. The text below a page's last line is carried forward. The section dict
  keeps Python's insertion order.
- **Assembly**: `document_from_sections` and `extract_text_from_pdf`, both
  string-building loops.
- **Request checks** (`app/app.py`): `allowed_file`, the order of the upload
  guards in `summarize_file`, and the `titles_summarized` / `titles_ignored`
  computation.

Modules:

| module | contents |
|---|---|
| `Text` | ASCII character classes, `str.find`, `in` on strings, `str.join`, `str.lower` |
| `Normalizer` | the `re.sub` model and the clean-up functions |
| `NormalizerExamples` | worked clean-up examples |
| `Geometry` | pages and drawings, horizontal-line detection, the stable sort |
| `SectionMaps` | an insertion-ordered dict |
| `Titles` | `str.splitlines` and the choice of a section's title |
| `Segmenter` | the sectioning loops and their specification |
| `Assembler` | `document_from_sections`, `extract_text_from_pdf` |
| `Upload` | `allowed_file`, the upload guards, the title lists |

The code that works by changing state is imperative Dafny, and each such method
is proved equal to a specification function. This covers the loops of
`extract_sections_by_horizontal_lines`, `document_from_sections` and
`extract_text_from_pdf`. The rest of the core is pure functions.

`clean_parsed_pdf` is not idempotent. For `"Page  1 of 2"` (two spaces), the
page-marker pattern does not match, and the whitespace pass then produces
`"Page 1 of 2"`. Cleaning that again deletes it as a page marker and gives `""`.
`NormalizerExamples.CleanIsNotIdempotent` proves this.

## Model

| member | source | states |
|---|---|---|
| Text.Find | parse_pdf.py:22 | `text.find(sub)`: the result is an occurrence of `sub`, and no occurrence comes before it. `None` means there is no occurrence anywhere. |
| Text.JoinContainsItem | app/app.py:57 | Every item of `", ".join(items)` occurs in the joined string. |
| Text.JoinAppend | app/app.py:57-58 | Joining two non-empty lists one after the other puts the separator between their joins. |
| Normalizer.RemoveAfterSubstring | parse_pdf.py:13-29 | The text is cut at the first occurrence of the substring, or returned whole when there is none. The result is always a prefix of the text. |
| Normalizer.RemoveAfterSubstringSplits | parse_pdf.py:22-26 | When the substring occurs: result + rest == text, the substring starts right at the cut, and it does not start anywhere before. |
| Normalizer.RemoveAfterEmptySubstring | parse_pdf.py:22-26 | An empty substring is found at position 0, so the result is `""`. |
| Normalizer.MatchAt | parse_pdf.py:36-47 | A match of any of the four patterns is non-empty, stays inside the text, and starts with the pattern's own first character: 'P', a digit, a space or a newline. |
| Normalizer.PageMarkerMatch | parse_pdf.py:36-37 | `Page \d+ of \d+` matches at `i` and ends at `e` exactly when the text there is "Page ", a run of digits, " of " and a run of digits that ends at `e`. The second run is greedy: no digit follows it. |
| Normalizer.BlankLineMatch | parse_pdf.py:46 | `\n\s*\n` matches at `i` and ends at `e` exactly when the text there is a newline, then whitespace, then a newline at `e - 1`. No newline follows within the whitespace run that continues after `e`, because backtracking stops at the last newline. |
| Normalizer.CopyChunk | parse_pdf.py:49-51 | `re.sub` copies unchanged every stretch in which no match can start. |
| Normalizer.ReSubDeletes | parse_pdf.py:44-51 | Every substitution used here only deletes characters: its output is a subsequence of its input. This holds when the replacement is empty, or is the one character every match starts with. |
| Normalizer.RemoveRegex | parse_pdf.py:49-51 | Deleting all matches of a pattern yields a subsequence of the text. |
| Normalizer.RemovePageNumbers | parse_pdf.py:36-37 | Removing "Page N of M" markers only deletes characters. |
| Normalizer.MarkerIsRemoved | parse_pdf.py:36-37 | For any digit strings N and M, any text before the marker, and any text after it that does not start with a digit: "Page N of M" is deleted and the text around it is kept, as long as the surrounding text contains no 'P' that could start another marker. |
| Normalizer.RemoveTimestamps | parse_pdf.py:39-41 | Removing word-bounded `dd/dd/dddd dd:dd` timestamps only deletes characters. |
| Normalizer.TimestampIsRemoved | parse_pdf.py:40-41 | A `dd/dd/dddd dd:dd` timestamp with no word character on either side is deleted and the text around it is kept, when the surrounding text holds no digit that could start another timestamp. |
| Normalizer.RemoveExtraWhitespace | parse_pdf.py:43-47 | The output has no two adjacent spaces and no empty or whitespace-only line between two newlines, and it is a subsequence of the input. |
| Normalizer.CleanParsedPdf | parse_pdf.py:31-34 | Markers, then timestamps, then whitespace are removed. The result has no double spaces and no empty lines, and it is a subsequence of the input. |
| Normalizer.CleanKeepsPlainText | parse_pdf.py:31-51 | Text with no 'P', digit, space or newline comes out of cleaning unchanged. |
| Normalizer.CollapseMatchesReference | parse_pdf.py:45 | `re.sub(' +', ' ', s)` equals an independent definition that drops every space following another space. |
| Normalizer.CollapsedHasNoDoubleSpace | parse_pdf.py:45 | After collapsing, no two spaces are adjacent. |
| Normalizer.CollapseKeepsSingleSpaces | parse_pdf.py:45 | A text without two adjacent spaces is left unchanged by the collapse. |
| Normalizer.CollapseIsIdempotent | parse_pdf.py:45 | Collapsing space runs twice gives the same text as collapsing once. |
| Normalizer.BlankLineRemovalKeepsNoDoubleSpace | parse_pdf.py:46 | Replacing `\n\s*\n` with a newline does not create adjacent spaces. |
| Normalizer.BlankLineRemovalLeavesNoEmptyLine | parse_pdf.py:46 | After replacing `\n\s*\n` with a newline, no two newlines enclose only whitespace. |
| NormalizerExamples.CleanReport | parse_pdf.py:31-47 | `"Page 3 of 10\nHello  world\n\n\nBye"` cleans to `"\nHello world\nBye"`. |
| NormalizerExamples.CleanNotes | parse_pdf.py:31-47 | `"01/02/2023 14:05 notes here"` cleans to `" notes here"`. |
| NormalizerExamples.GluedTimestampIsKept | parse_pdf.py:40-41 | A timestamp right after a word character is kept, because of the `\b` anchor: `"x01/02/2023 14:05"` is unchanged. |
| NormalizerExamples.MarkerIsDeleted | parse_pdf.py:36-37 | `"Page 1 of 2"` is deleted entirely. |
| NormalizerExamples.CleanIsNotIdempotent | parse_pdf.py:31-47 | Cleaning twice can differ from cleaning once: `"Page  1 of 2"` cleans to `"Page 1 of 2"`, which cleans to `""`. |
| Geometry.AllItemsMember | parse_pdf.py:69-70 | An item is visited exactly when it belongs to one of the page's drawings. |
| Geometry.HorizontalSegmentsMember | parse_pdf.py:70-76 | A segment is kept exactly when it comes from an `'l'` item whose end points differ in y by less than 1. |
| Geometry.HorizontalSegmentsAppend | parse_pdf.py:69-76 | Filtering two item lists one after the other concatenates their kept segments. |
| Geometry.InsertPermutes | parse_pdf.py:79 | Inserting adds exactly the one element: multiset(result) = multiset(list) + {x}. |
| Geometry.InsertSorted | parse_pdf.py:79 | Inserting into a list sorted by start y keeps it sorted. |
| Geometry.SortByStartYSpec | parse_pdf.py:79 | The sort's result is sorted by start y and is a permutation of its input. |
| Geometry.SortIsStable | parse_pdf.py:79 | For every y, the lines with that start y keep their relative order. |
| Geometry.HorizontalLinesSpec | parse_pdf.py:65-79 | A page's lines are exactly its horizontal `'l'` items. They are sorted by start y, they are a permutation of the collected list, and ties keep drawing order. |
| Geometry.FindHorizontalLines | parse_pdf.py:65-79 | The nested loops and the sort compute the specified line list. It is sorted, and it is empty for a page without drawings. |
| SectionMaps.Put | parse_pdf.py:91 | `d[k] = v`: a present key keeps its position, and a new key is appended. Afterwards `k` maps to `v`, every other key keeps its value, no other entry appears, and keys stay unique. |
| Titles.SplitLinesAreLines | parse_pdf.py:90 | `str.splitlines()` lists whole lines of the text: each starts at the text's start or after a line boundary, ends at a boundary or the text's end, and has no boundary inside. It lists nothing exactly for the empty text. Every character that is not a boundary lies inside a listed line. |
| Titles.FirstNonBlank | parse_pdf.py:90 | `next(...)` picks the first line that is not all whitespace, or gives `None` exactly when every line is whitespace. |
| Titles.TitleIsFirstNonBlankLine | parse_pdf.py:90 | A title is a whole line of the text, containing a non-whitespace character, with only whitespace before it. With no title, the text is all whitespace. |
| Titles.TitleNoneIffBlank | parse_pdf.py:90 | The title is `None` exactly when the cleaned text is all whitespace. |
| Titles.TitleAtIsTitle | parse_pdf.py:90 | Conversely, the first non-blank whole line is the title. |
| Segmenter.BandsTilePage | parse_pdf.py:82-96 | Every band spans the page width. The first band starts at the page top, and each later band starts where the previous one ends. Over sorted lines no band after the first is inverted, and the first is not inverted either when the first line lies at or below the page top. The tail runs from the last line, or the page top, to the page bottom. |
| Segmenter.StoreBandSpec | parse_pdf.py:86-92 | An empty band changes nothing. A non-empty band stores `clean(carry + band)` under its title, keeping the position of an existing title. Other titles are untouched, and the carry is reset. |
| Segmenter.CutBands | parse_pdf.py:82-93 | The loop over a page's lines computes the specified fold over its bands. `previous_y` ends at the last line, or at the page top when there is none. |
| Segmenter.ScanPage | parse_pdf.py:61-99 | One page iteration computes the specified page step. |
| Segmenter.ExtractSectionsByHorizontalLines | parse_pdf.py:53-102 | The returned dict is the specified fold over all pages. Its titles are unique, and every value is free of double spaces and empty lines and is stored under its own title. |
| Segmenter.SectionsWellFormed | parse_pdf.py:87-91 | Every result has unique titles, and clean values stored under their own titles. |
| Segmenter.LineBandsCarry | parse_pdf.py:83-93 | The carry survives a page's bands unchanged exactly when none of them has text. Otherwise it is `""`. Bands without text change nothing. |
| Segmenter.PageCarry | parse_pdf.py:83-99 | After a page, the carry is its tail text, prefixed with the previous carry only when none of the page's bands had text. |
| Segmenter.PageWithoutLines | parse_pdf.py:95-99 | A page without horizontal lines only appends its whole text to the carry. |
| Segmenter.UnruledPagesFeedCarry | parse_pdf.py:95-99 | Two pages without horizontal lines, one after the other, store nothing. They append the first page's whole text and then the second's to the carry. |
| Segmenter.TwoUnruledPagesExample | parse_pdf.py:59-99 | Two line-free pages of the same size that read "A" and "B" leave the carry `"AB"`. |
| Segmenter.TrailingCarryDropped | parse_pdf.py:95-102 | Text still carried after the last page is never stored: adding a trailing page without lines leaves the result unchanged. |
| Segmenter.TwoPageExample | parse_pdf.py:53-102 | A cover page with no lines followed by a ruled page. The cover's text joins the first band of the ruled page, and the text below the rule is dropped. |
| Assembler.Assemble | parse_pdf.py:104-108 | The document is empty exactly when the dict is empty. |
| Assembler.AssembleEndsWithBlankLine | parse_pdf.py:107 | A non-empty document ends with `"\n\n"`. |
| Assembler.DocumentFromSections | parse_pdf.py:104-108 | The `+=` loop builds the concatenation of `title\ncontent\n\n` over the entries in dict order. |
| Assembler.AssembleAppend | parse_pdf.py:106-107 | Assembling two dicts' entries in sequence gives the concatenation of their documents. |
| Assembler.EntryInPlace | parse_pdf.py:106-107 | Each entry's text stands between the documents of the entries before it and after it. |
| Assembler.NoneTitlePrintsAsNone | parse_pdf.py:107 | `f"{title}"` with a `None` title: the entry stands in the document as `"None\n"`, its content and a blank line. |
| Assembler.NoneTitleLikeNamedNone | parse_pdf.py:107 | A section without a title assembles exactly like one titled `"None"`. |
| Assembler.NoneTitleExample | parse_pdf.py:107 | `{None: "x"}` assembles to `"None\nx\n\n"`. |
| Assembler.AssembleExample | parse_pdf.py:104-108 | `{"A": "x", "B": "y"}` assembles to `"A\nx\n\nB\ny\n\n"`. |
| Assembler.ExtractTextFromPdf | parse_pdf.py:4-10 | The loop builds the concatenation of every page's text, in page order. |
| Assembler.AllTextAppend | parse_pdf.py:7-9 | The text of two page runs in sequence is the concatenation of their texts. |
| Assembler.PageTextInPlace | parse_pdf.py:7-9 | Each page's text stands between the text of the pages before it and after it. |
| Upload.LastIndexOf | app/app.py:16 | The cut of `rsplit('.', 1)`: the last dot, with no dot after it, or `None` exactly when there is no dot. |
| Upload.AllowedFile | app/app.py:15-16 | A name without a dot is refused. |
| Upload.AllowedFileIffPdfExtension | app/app.py:15-16 | A name is accepted exactly when it ends in a dot followed by "pdf" in any letter case. |
| Upload.LowerIsPdf | app/app.py:16 | `ext.lower() == "pdf"` exactly when `ext` has three characters: 'p' or 'P', 'd' or 'D', 'f' or 'F'. |
| Upload.PdfAccepted | app/app.py:15-16 | Every name ending in ".pdf" is accepted, whatever comes before. |
| Upload.UpperCaseAccepted | app/app.py:15-16 | `"scan.PDF"` is accepted: the extension's case does not matter. |
| Upload.AcceptedNames | app/app.py:15-16 | `"scan.PDF"`, `"a.b.pdf"` and `".pdf"` are accepted. |
| Upload.RejectedNames | app/app.py:15-16 | `"a.pdf.zip"`, `"file."` and `"pdf"` are refused. |
| Upload.SummarizeGuard | app/app.py:29-36 | The guards in order: no file part gives a redirect; an empty filename gives 400 "No file selected"; otherwise a refused name gives 400 "Invalid file" (lines 69-70). Only an allowed name proceeds, and it keeps its filename. |
| Upload.ProceedOnlyWithPdf | app/app.py:33-37 | A request that gets past the guards carries a name ending in ".pdf", in any case. |
| Upload.TitlesSummarized | app/app.py:57 | `', '.join(summaries.keys())`: every summarised title occurs in the result. |
| Upload.TitlesSummarizedAppend | app/app.py:57 | The summary list of two runs of titles is their two lists joined by `", "`. |
| Upload.KeptTitles | app/app.py:58 | The comprehension raises exactly when a section title is `None`. Otherwise it keeps exactly the section titles that are not substrings of the summarised-titles string. |
| Upload.KeptTitlesAppend | app/app.py:58 | The comprehension keeps section order: the titles kept from two runs of sections are those kept from the first run followed by those kept from the second. |
| Upload.TitlesIgnored | app/app.py:58 | The ignored-titles string fails exactly when a section title is `None`. Otherwise every section title that is not a substring of the summarised string occurs in it. |
| Upload.SummarizedNotIgnored | app/app.py:57-58 | A title that was summarised is never listed as ignored. |
| Upload.SubstringOfSummarizedIsHidden | app/app.py:57-58 | A section title that is a substring of some summarised title is hidden from the ignored list, although it was not summarised. |
| Upload.SeparatorIsHidden | app/app.py:57-58 | With two or more summaries, a section titled `", "` is hidden by the join separator. |
| Upload.TitlesExample | app/app.py:57-58 | With "Medical" summarised, the sections "Med", "Intake" and "Medical" report only "Intake" as ignored. |

## Left out

- PyMuPDF is outside the model.
  - `fitz.open`, `load_page`, `get_drawings`, `get_text` and `doc.close` are not modelled.
  - A document is a sequence of `Page` values. Each has its number (`doc.load_page(page_number)`), its rectangle and its drawings. The number gives pages of the same size and drawings their own identity, so the text extractor can read different text from each. The model does not require the numbers to run 0, 1, 2, ….
  - Text extraction is a function parameter (`getText`, given the mode `"text"` or `"text-with-newlines"` and the clip). `extract_text_from_pdf` likewise takes the page text as a parameter.
  - What PyMuPDF returns for a clip is not modelled.
- Drawing items are reduced to two kinds. An item is a straight line (`'l'`) with its two end points, or any other kind, which the code ignores. The tuple layout of PyMuPDF items is not modelled.
- Coordinates are Dafny reals, not floating point. The code only subtracts, compares and sorts them.
- Character classes are ASCII only:
  - `\d` is `0-9`;
  - `\s` and `str.strip` cover the ASCII characters Python treats as whitespace;
  - `\b` word characters are `[A-Za-z0-9_]`;
  - `str.splitlines` breaks at `\n`, `\r`, `\r\n`, `\v`, `\f` and `\x1c`-`\x1e`;
  - `str.lower` lowers `A-Z` only.
- Python's sort (Timsort) is modelled as a stable insertion sort. A stable sort's result is unique, so the two agree, but the running time is not modelled.
- A Python dict is modelled as a sequence of (title, value) pairs in insertion order. Hashing is not modelled.
- Resources and errors from the PDF library are not modelled:
  - `doc.close()` runs only on the normal path, and `extract_text_from_pdf` never closes its document;
  - no "always closed" property is claimed;
  - exceptions raised for malformed PDFs are not modelled.
- Flask plumbing is not modelled: routes, `render_template`, the form fields, `file.read`, the upload folder and the error handlers. `abort` and `redirect` become values of a `Response` datatype.
  - The 500 responses at app/app.py:40-65 wrap failures of the summariser and the parser, and are not modelled.
  - `Upload.SummarizeGuard` assumes that an uploaded file part with a non-empty filename is truthy, as Werkzeug's `FileStorage` is.
- Normalizer.MatchAt: its own contract gives only bounds and the first character of a match. The exact match of the page-marker and blank-line patterns is stated by `Normalizer.PageMarkerMatch` and `Normalizer.BlankLineMatch`. The space-run pattern is covered by `Normalizer.CollapseMatchesReference`. The timestamp pattern has no separate characterisation beyond `Normalizer.TimestampIsRemoved` and the examples.
- Normalizer.RemovePageNumbers: its own contract says only that characters are deleted. Which characters are deleted is stated by `Normalizer.MarkerIsRemoved`, and only for one marker in text that holds no other 'P'. A general rule for several markers side by side is not proved.
- Normalizer.RemoveTimestamps: its own contract says only that characters are deleted. Which characters are deleted is stated by `Normalizer.TimestampIsRemoved`, and only for one timestamp in text that holds no other digit.
- `titles_ignored` on a `None` title raises `TypeError`. This is modelled as a `None` result of `Upload.KeptTitles` and `Upload.TitlesIgnored`, not as an exception.
- `app/ai_summarizer.py` is not part of this model: it is a network client for the language model, with a thread pool and token counting.
- The older entry point `app.py` is not modelled separately. Its `allowed_file` and title bookkeeping are the same as in `app/app.py`, and the rest of it is route glue.

=== FILE: assembler.dfy ===
/** Building one string from many: `document_from_sections` joins the entries of
    a section dict (`parse_pdf.py`, lines 104-108) and `extract_text_from_pdf`
    joins the text of every page (lines 4-10). Both do it with `+=` in a loop. */
module Assembler {
  import opened Text
  import opened SectionMaps
  import opened Geometry

  // ---------------------------------------------------------------------------
  // document_from_sections

  /** `f"{title}"`: a title that is `None` prints as "None". */
  function FormatKey(k: Key): string
  {
    match k
    case None => "None"
    case Some(t) => t
  }

  /** What one entry contributes: the title, its content, then a blank line. */
  function Entry(e: (Key, string)): string
  {
    FormatKey(e.0) + "\n" + e.1 + "\n\n"
  }

  /** The entries' contributions in dict order. */
  function Assemble(m: SectionMap): (doc: string)
    ensures doc == "" <==> m == []
  {
    if m == [] then "" else Assemble(m[..|m| - 1]) + Entry(m[|m| - 1])
  }

  /** A non-empty document ends with the blank line of its last entry. */
  lemma AssembleEndsWithBlankLine(m: SectionMap)
    requires m != []
    ensures var doc := Assemble(m); |doc| >= 2 && doc[|doc| - 2..] == "\n\n"
  {
    var e := Entry(m[|m| - 1]);
    var doc := Assemble(m);
    assert doc == Assemble(m[..|m| - 1]) + e;
    assert doc[|doc| - 2..] == e[|e| - 2..];
  }

  method DocumentFromSections(sections: SectionMap) returns (combined: string)
    ensures combined == Assemble(sections)
  {
    combined := "";
    var i := 0;
    while i < |sections|
      invariant 0 <= i <= |sections|
      invariant combined == Assemble(sections[..i])
    {
      var (title, content) := sections[i];
      assert sections[..i + 1][..i] == sections[..i];
      combined := combined + FormatKey(title) + "\n" + content + "\n\n";
      i := i + 1;
    }
    assert sections[..i] == sections;
  }

  /** Assembling two dicts' entries one after the other concatenates their documents. */
  lemma {:induction false} AssembleAppend(a: SectionMap, b: SectionMap)
    ensures Assemble(a + b) == Assemble(a) + Assemble(b)
  {
    if b == [] {
      assert a + b == a;
    } else {
      var n := |b| - 1;
      var e := Entry(b[n]);
      assert (a + b)[..|a + b| - 1] == a + b[..n];
      assert (a + b)[|a + b| - 1] == b[n];
      assert Assemble(a + b) == Assemble(a + b[..n]) + e;
      AssembleAppend(a, b[..n]);
      assert Assemble(b) == Assemble(b[..n]) + e;
    }
  }

  /** Entry `i` stands in the document right after the entries before it. */
  lemma EntryInPlace(m: SectionMap, i: nat)
    requires i < |m|
    ensures Assemble(m) == Assemble(m[..i]) + Entry(m[i]) + Assemble(m[i + 1..])
  {
    var pre, post := m[..i + 1], m[i + 1..];
    assert m == pre + post;
    AssembleAppend(pre, post);
    LastEntry(m, i);
  }

  /** The entries up to and including `i` end with entry `i`. */
  lemma LastEntry(m: SectionMap, i: nat)
    requires i < |m|
    ensures Assemble(m[..i + 1]) == Assemble(m[..i]) + Entry(m[i])
  {
    var pre := m[..i + 1];
    assert pre[..|pre| - 1] == m[..i];
    assert pre[|pre| - 1] == m[i];
  }

  lemma AssembleExample()
    ensures Assemble([(Some("A"), "x"), (Some("B"), "y")]) == "A\nx\n\nB\ny\n\n"
  {
    var m := [(Some("A"), "x"), (Some("B"), "y")];
    assert m[..1] == [(Some("A"), "x")] && m[..1][..0] == [];
  }

  /** A section without a title prints its heading as "None": its entry stands
      in the document as "None", its content and a blank line. */
  lemma NoneTitlePrintsAsNone(m: SectionMap, i: nat)
    requires i < |m| && m[i].0 == None
    ensures OccursAt(Assemble(m), "None\n" + m[i].1 + "\n\n", |Assemble(m[..i])|)
  {
    var e := Entry(m[i]);
    assert "None" + "\n" == "None\n";
    assert e == "None\n" + m[i].1 + "\n\n";
    EntryInPlace(m, i);
    OccursInfix(Assemble(m[..i]), e, Assemble(m[i + 1..]));
  }

  /** The document is the same as if the untitled section were titled "None". */
  lemma NoneTitleLikeNamedNone(m: SectionMap, i: nat)
    requires i < |m| && m[i].0 == None
    ensures Assemble(m) == Assemble(m[i := (Some("None"), m[i].1)])
  {
    var named := m[i := (Some("None"), m[i].1)];
    EntryInPlace(m, i);
    EntryInPlace(named, i);
    assert named[..i] == m[..i] && named[i + 1..] == m[i + 1..];
    assert Entry(named[i]) == Entry(m[i]);
  }

  lemma NoneTitleExample()
    ensures Assemble([(None, "x")]) == "None\nx\n\n"
  {
  }

  // ---------------------------------------------------------------------------
  // extract_text_from_pdf

  /** Every page's text (`page.get_text()`), page after page. */
  function AllText(pageText: Page -> string, pages: seq<Page>): string
  {
    if pages == [] then "" else AllText(pageText, pages[..|pages| - 1]) + pageText(pages[|pages| - 1])
  }

  method ExtractTextFromPdf(pageText: Page -> string, pages: seq<Page>) returns (text: string)
    ensures text == AllText(pageText, pages)
  {
    text := "";
    var pageNum := 0;
    while pageNum < |pages|
      invariant 0 <= pageNum <= |pages|
      invariant text == AllText(pageText, pages[..pageNum])
    {
      assert pages[..pageNum + 1][..pageNum] == pages[..pageNum];
      text := text + pageText(pages[pageNum]);
      pageNum := pageNum + 1;
    }
    assert pages[..pageNum] == pages;
  }

  lemma {:induction false} AllTextAppend(pageText: Page -> string, a: seq<Page>, b: seq<Page>)
    ensures AllText(pageText, a + b) == AllText(pageText, a) + AllText(pageText, b)
  {
    if b == [] {
      assert a + b == a;
    } else {
      var n := |b| - 1;
      assert (a + b)[..|a + b| - 1] == a + b[..n];
      assert (a + b)[|a + b| - 1] == b[n];
      AllTextAppend(pageText, a, b[..n]);
    }
  }

  /** Page `i`'s text stands right after the text of the pages before it. */
  lemma PageTextInPlace(pageText: Page -> string, pages: seq<Page>, i: nat)
    requires i < |pages|
    ensures AllText(pageText, pages) ==
      AllText(pageText, pages[..i]) + pageText(pages[i]) + AllText(pageText, pages[i + 1..])
  {
    var pre := pages[..i + 1];
    assert pages == pre + pages[i + 1..];
    AllTextAppend(pageText, pre, pages[i + 1..]);
    assert pre[..i] == pages[..i];
  }
}

=== FILE: geometry.dfy ===
/** Pages, their vector drawings, and the horizontal lines found among them
    (`parse_pdf.py`, lines 62-79). Coordinates are reals; PyMuPDF's y axis grows
    downwards, so sorting by y orders lines from the top of the page. */
module Geometry {

  datatype Point = Point(x: real, y: real)

  /** `fitz.Rect(x0, y0, x1, y1)`. */
  datatype Rect = Rect(x0: real, y0: real, x1: real, y1: real)

  /** One entry of a drawing's `items` list: a straight line (tag `'l'`) with its
      two end points, or any other path element (curve, rectangle, quad). */
  datatype DrawItem = Line(start: Point, end: Point) | Other

  /** One dictionary returned by `page.get_drawings()`; only its items are read. */
  datatype Drawing = Drawing(items: seq<DrawItem>)

  /** `doc.load_page(page_num)`: the page's number within its document, which
      gives every page its own identity, then its rectangle and its drawings. */
  datatype Page = Page(number: nat, rect: Rect, drawings: seq<Drawing>)

  /** The two `get_text` options used on a clip: `"text"` and `"text-with-newlines"`. */
  datatype TextMode = Plain | WithNewlines

  /** `page.get_text(mode, clip=rect)`: PyMuPDF's text extraction, taken as given. */
  type Extractor = (Page, TextMode, Rect) -> string

  /** The `(start, end)` pair stored for a horizontal line. */
  datatype Segment = Segment(start: Point, end: Point)

  function Abs(r: real): real { if r < 0.0 then -r else r }

  /** A line item whose end points differ in y by less than one unit. */
  predicate IsHorizontal(item: DrawItem)
  {
    item.Line? && Abs(item.end.y - item.start.y) < 1.0
  }

  /** The sort key `x[0].y`. */
  function StartY(s: Segment): real { s.start.y }

  // ---------------------------------------------------------------------------
  // Collecting the lines

  /** Every item of every drawing, drawing by drawing. */
  function AllItems(ds: seq<Drawing>): seq<DrawItem>
  {
    if ds == [] then [] else AllItems(ds[..|ds| - 1]) + ds[|ds| - 1].items
  }

  /** The horizontal line items of `items`, in order, as segments. */
  function HorizontalSegments(items: seq<DrawItem>): seq<Segment>
  {
    if items == [] then []
    else
      var last := items[|items| - 1];
      HorizontalSegments(items[..|items| - 1])
        + (if IsHorizontal(last) then [Segment(last.start, last.end)] else [])
  }

  lemma {:induction false} HorizontalSegmentsAppend(a: seq<DrawItem>, b: seq<DrawItem>)
    ensures HorizontalSegments(a + b) == HorizontalSegments(a) + HorizontalSegments(b)
  {
    if b != [] {
      var n := |b| - 1;
      var ab := a + b;
      assert ab[|ab| - 1] == b[n];
      assert ab[..|ab| - 1] == a + b[..n];
      HorizontalSegmentsAppend(a, b[..n]);
    } else {
      assert a + b == a;
    }
  }

  lemma {:induction false} AllItemsMember(ds: seq<Drawing>, it: DrawItem)
    ensures it in AllItems(ds) <==> exists i | 0 <= i < |ds| :: it in ds[i].items
  {
    if ds != [] {
      var n := |ds| - 1;
      AllItemsMember(ds[..n], it);
      assert forall i | 0 <= i < n :: ds[..n][i] == ds[i];
    }
  }

  lemma {:induction false} HorizontalSegmentsMember(items: seq<DrawItem>, s: Segment)
    ensures s in HorizontalSegments(items) <==>
      exists it | it in items :: IsHorizontal(it) && s == Segment(it.start, it.end)
  {
    if items != [] {
      var n := |items| - 1;
      var front, last := items[..n], items[n];
      HorizontalSegmentsMember(front, s);
      assert items == front + [last];
      if s in HorizontalSegments(items) {
        if s in HorizontalSegments(front) {
          var it :| it in front && IsHorizontal(it) && s == Segment(it.start, it.end);
          assert it in items;
        } else {
          assert IsHorizontal(last) && s == Segment(last.start, last.end);
        }
      }
      if exists it | it in items :: IsHorizontal(it) && s == Segment(it.start, it.end) {
        var it :| it in items && IsHorizontal(it) && s == Segment(it.start, it.end);
        if it != last {
          assert it in front;
        }
      }
    }
  }

  // ---------------------------------------------------------------------------
  // Python's stable sort, as insertion sort

  predicate SortedByStartY(s: seq<Segment>)
  {
    forall i, j | 0 <= i < j < |s| :: StartY(s[i]) <= StartY(s[j])
  }

  /** Put `x` after every element whose key is at most its own. */
  function Insert(x: Segment, s: seq<Segment>): seq<Segment>
  {
    if s == [] then [x]
    else if StartY(s[0]) > StartY(x) then [x] + s
    else [s[0]] + Insert(x, s[1..])
  }

  /** Inserting adds exactly the one element. */
  lemma {:induction false} InsertPermutes(x: Segment, s: seq<Segment>)
    ensures multiset(Insert(x, s)) == multiset(s) + multiset{x}
  {
    if s != [] && StartY(s[0]) <= StartY(x) {
      InsertPermutes(x, s[1..]);
      assert s == [s[0]] + s[1..];
    }
  }

  /** No key of `s` is below `y`. */
  predicate KeysFrom(y: real, s: seq<Segment>)
  {
    forall k | 0 <= k < |s| :: y <= StartY(s[k])
  }

  lemma {:induction false} InsertKeysFrom(y: real, x: Segment, s: seq<Segment>)
    requires KeysFrom(y, s) && y <= StartY(x)
    ensures KeysFrom(y, Insert(x, s))
  {
    if s != [] && StartY(s[0]) <= StartY(x) {
      InsertKeysFrom(y, x, s[1..]);
    }
  }

  lemma {:induction false} InsertSorted(x: Segment, s: seq<Segment>)
    requires SortedByStartY(s)
    ensures SortedByStartY(Insert(x, s))
  {
    if s != [] && StartY(s[0]) <= StartY(x) {
      InsertSorted(x, s[1..]);
      InsertKeysFrom(StartY(s[0]), x, s[1..]);
    }
  }

  /** `list.sort(key=lambda x: x[0].y)`: each element is inserted in its turn. */
  function SortByStartY(s: seq<Segment>): seq<Segment>
  {
    if s == [] then [] else Insert(s[|s| - 1], SortByStartY(s[..|s| - 1]))
  }

  /** The sort's result is sorted and a permutation of its input. */
  lemma {:induction false} SortByStartYSpec(s: seq<Segment>)
    ensures SortedByStartY(SortByStartY(s))
    ensures multiset(SortByStartY(s)) == multiset(s)
  {
    if s != [] {
      var n := |s| - 1;
      var sorted := SortByStartY(s[..n]);
      assert SortByStartY(s) == Insert(s[n], sorted);
      SortByStartYSpec(s[..n]);
      InsertSorted(s[n], sorted);
      InsertPermutes(s[n], sorted);
      assert s == s[..n] + [s[n]];
    }
  }

  /** The elements of `s` whose key is `y`, in order. */
  function WithStartY(s: seq<Segment>, y: real): seq<Segment>
  {
    if s == [] then []
    else (if StartY(s[0]) == y then [s[0]] else []) + WithStartY(s[1..], y)
  }

  lemma {:induction false} WithStartYAppend(a: seq<Segment>, b: seq<Segment>, y: real)
    ensures WithStartY(a + b, y) == WithStartY(a, y) + WithStartY(b, y)
  {
    if a != [] {
      var ab := a + b;
      var head := if StartY(a[0]) == y then [a[0]] else [];
      assert ab[0] == a[0];
      assert ab[1..] == a[1..] + b;
      assert WithStartY(ab, y) == head + WithStartY(a[1..] + b, y);
      WithStartYAppend(a[1..], b, y);
      assert WithStartY(a, y) == head + WithStartY(a[1..], y);
    } else {
      assert a + b == b;
    }
  }

  lemma {:induction false} WithStartYAbove(s: seq<Segment>, y: real)
    requires forall k | 0 <= k < |s| :: StartY(s[k]) > y
    ensures WithStartY(s, y) == []
  {
    if s != [] {
      WithStartYAbove(s[1..], y);
    }
  }

  lemma WithStartYCons(a: Segment, s: seq<Segment>, y: real)
    ensures WithStartY([a] + s, y) == (if StartY(a) == y then [a] else []) + WithStartY(s, y)
  {
    assert ([a] + s)[0] == a;
    assert ([a] + s)[1..] == s;
  }

  /** An element placed in front of larger keys adds its tie after theirs, which are none. */
  lemma InsertedFirstKeepsTies(x: Segment, s: seq<Segment>, y: real)
    requires SortedByStartY(s) && s != [] && StartY(s[0]) > StartY(x)
    ensures WithStartY([x] + s, y) == WithStartY(s, y) + (if StartY(x) == y then [x] else [])
  {
    WithStartYCons(x, s, y);
    if StartY(x) == y {
      WithStartYAbove(s, y);
    }
  }

  lemma {:induction false} InsertKeepsTies(x: Segment, s: seq<Segment>, y: real)
    requires SortedByStartY(s)
    ensures WithStartY(Insert(x, s), y) == WithStartY(s, y) + WithStartY([x], y)
  {
    var hx := if StartY(x) == y then [x] else [];
    WithStartYCons(x, [], y);
    assert [x] + [] == [x];
    if s == [] {
    } else if StartY(s[0]) > StartY(x) {
      InsertedFirstKeepsTies(x, s, y);
    } else {
      var rest := Insert(x, s[1..]);
      var h0 := if StartY(s[0]) == y then [s[0]] else [];
      WithStartYCons(s[0], rest, y);
      InsertKeepsTies(x, s[1..], y);
      assert s == [s[0]] + s[1..];
      WithStartYCons(s[0], s[1..], y);
      assert h0 + (WithStartY(s[1..], y) + hx) == (h0 + WithStartY(s[1..], y)) + hx;
    }
  }

  /** Stability: for every key, the elements with that key keep their order. */
  lemma {:induction false} SortIsStable(s: seq<Segment>, y: real)
    ensures WithStartY(SortByStartY(s), y) == WithStartY(s, y)
  {
    if s != [] {
      var n := |s| - 1;
      var sorted := SortByStartY(s[..n]);
      assert SortByStartY(s) == Insert(s[n], sorted);
      SortIsStable(s[..n], y);
      SortByStartYSpec(s[..n]);
      InsertKeepsTies(s[n], sorted, y);
      WithStartYSnoc(s, y);
    }
  }

  lemma WithStartYSnoc(s: seq<Segment>, y: real)
    requires s != []
    ensures WithStartY(s, y) == WithStartY(s[..|s| - 1], y) + WithStartY([s[|s| - 1]], y)
  {
    var n := |s| - 1;
    assert s == s[..n] + [s[n]];
    WithStartYAppend(s[..n], [s[n]], y);
  }

  /** The kept lines of a page, in drawing order (the list before sorting). */
  function CollectedLines(page: Page): seq<Segment>
  {
    HorizontalSegments(AllItems(page.drawings))
  }

  /** The list the loop at lines 68-79 leaves behind. */
  function HorizontalLines(page: Page): seq<Segment>
  {
    SortByStartY(CollectedLines(page))
  }

  /** The lines are exactly the horizontal `'l'` items of the page's drawings,
      sorted by start y, with ties in drawing order. */
  lemma HorizontalLinesSpec(page: Page)
    ensures SortedByStartY(HorizontalLines(page))
    ensures multiset(HorizontalLines(page)) == multiset(CollectedLines(page))
    ensures forall y: real :: WithStartY(HorizontalLines(page), y) == WithStartY(CollectedLines(page), y)
    ensures forall s :: s in HorizontalLines(page) <==>
      exists i, it | 0 <= i < |page.drawings| && it in page.drawings[i].items ::
        IsHorizontal(it) && s == Segment(it.start, it.end)
  {
    var c := CollectedLines(page);
    SortByStartYSpec(c);
    forall y: real ensures WithStartY(HorizontalLines(page), y) == WithStartY(c, y) {
      SortIsStable(c, y);
    }
    forall s ensures s in HorizontalLines(page) <==>
      exists i, it | 0 <= i < |page.drawings| && it in page.drawings[i].items ::
        IsHorizontal(it) && s == Segment(it.start, it.end)
    {
      assert s in HorizontalLines(page) <==> s in multiset(c);
      HorizontalSegmentsMember(AllItems(page.drawings), s);
      forall it ensures it in AllItems(page.drawings) <==>
        exists i | 0 <= i < |page.drawings| :: it in page.drawings[i].items
      {
        AllItemsMember(page.drawings, it);
      }
    }
  }

  /** Lines 68-79: scan every item of every drawing, keep the horizontal lines,
      then sort them by start y. */
  method FindHorizontalLines(page: Page) returns (lines: seq<Segment>)
    ensures lines == HorizontalLines(page)
    ensures SortedByStartY(lines)
    ensures page.drawings == [] ==> lines == []
  {
    var found: seq<Segment> := [];
    var d := 0;
    while d < |page.drawings|
      invariant 0 <= d <= |page.drawings|
      invariant found == HorizontalSegments(AllItems(page.drawings[..d]))
    {
      ghost var before := found;
      var items := page.drawings[d].items;
      var k := 0;
      while k < |items|
        invariant 0 <= k <= |items|
        invariant found == before + HorizontalSegments(items[..k])
      {
        var item := items[k];
        assert items[..k + 1][..k] == items[..k];
        if item.Line? {
          if Abs(item.end.y - item.start.y) < 1.0 {
            found := found + [Segment(item.start, item.end)];
          }
        }
        k := k + 1;
      }
      assert items[..k] == items;
      assert page.drawings[..d + 1][..d] == page.drawings[..d];
      HorizontalSegmentsAppend(AllItems(page.drawings[..d]), items);
      d := d + 1;
    }
    assert page.drawings[..d] == page.drawings;
    lines := SortByStartY(found);
    SortByStartYSpec(found);
  }
}

=== FILE: normalizer.dfy ===
/** The text clean-up of parse_pdf.py: `remove_after_substring` and
    `clean_parsed_pdf` with its helpers. Each regular-expression substitution is
    modelled as Python's `re.sub` does it: scan left to right, replace the
    leftmost match, resume after it, copy a character where nothing matches. */
module Normalizer {
  import opened Text

  // ---------------------------------------------------------------------------
  // remove_after_substring

  /** Cut `text` at the first occurrence of `substring`; keep it whole when
      `substring` does not occur. */
  function RemoveAfterSubstring(text: string, substring: string): (r: string)
    ensures Find(text, substring).Some? ==> r == text[..Find(text, substring).value]
    ensures Find(text, substring).None? ==> r == text
    ensures r <= text
  {
    var position := Find(text, substring);
    if position.Some? then text[..position.value] else text
  }

  /** When the substring occurs, the result followed by the first occurrence
      and everything after it gives back the text, and the result itself holds
      no occurrence of the substring that ends before the cut. */
  lemma RemoveAfterSubstringSplits(text: string, substring: string)
    requires Contains(text, substring)
    ensures var r := RemoveAfterSubstring(text, substring);
            r + text[|r|..] == text && OccursAt(text, substring, |r|)
            && forall q: nat | q < |r| :: !OccursAt(text, substring, q)
  {
  }

  /** An empty substring is found at position 0, so nothing is kept. */
  lemma RemoveAfterEmptySubstring(text: string)
    ensures RemoveAfterSubstring(text, "") == ""
  {
    FindEmpty(text);
  }

  // ---------------------------------------------------------------------------
  // The four patterns and where each one matches

  /** `Page \d+ of \d+`, `\b\d{2}/\d{2}/\d{4} \d{2}:\d{2}\b`, ` +` and `\n\s*\n`. */
  datatype Pattern = PageMarker | Timestamp | SpaceRun | BlankLine

  datatype CharClass = Digits | Spaces | Whitespace

  predicate InClass(c: char, cls: CharClass)
  {
    match cls
    case Digits => IsDigit(c)
    case Spaces => c == ' '
    case Whitespace => IsSpace(c)
  }

  /** End of the longest run of `cls` characters starting at `k` (greedy `+`/`*`). */
  function RunEnd(s: string, k: nat, cls: CharClass): (j: nat)
    requires k <= |s|
    ensures k <= j <= |s|
    ensures forall m | k <= m < j :: InClass(s[m], cls)
    ensures j == |s| || !InClass(s[j], cls)
    decreases |s| - k
  {
    if k < |s| && InClass(s[k], cls) then RunEnd(s, k + 1, cls) else k
  }

  /** The last newline in `s[lo..hi]`, if any. */
  function LastNewline(s: string, lo: nat, hi: nat): (r: Option<nat>)
    requires lo <= hi <= |s|
    ensures r.Some? ==> lo <= r.value < hi && s[r.value] == '\n'
    ensures r.Some? ==> forall m | r.value < m < hi :: s[m] != '\n'
    ensures r.None? ==> forall m | lo <= m < hi :: s[m] != '\n'
    decreases hi - lo
  {
    if lo == hi then None
    else if s[hi - 1] == '\n' then Some(hi - 1)
    else LastNewline(s, lo, hi - 1)
  }

  /** The layout of a timestamp: `d` is a digit, every other character stands for itself. */
  const TimestampShape: string := "dd/dd/dddd dd:dd"

  predicate TimestampAt(s: string, i: nat)
  {
    && i + |TimestampShape| <= |s|
    && forall k | 0 <= k < |TimestampShape| ::
         if TimestampShape[k] == 'd' then IsDigit(s[i + k]) else s[i + k] == TimestampShape[k]
  }

  /** `\b` before a word character at `i`: start of text or a non-word character before it. */
  predicate WordStart(s: string, i: nat)
    requires i <= |s|
  {
    i == 0 || !IsWordChar(s[i - 1])
  }

  /** `\b` after a word character ending at `j`: end of text or a non-word character next. */
  predicate WordEnd(s: string, j: nat)
    requires j <= |s|
  {
    j == |s| || !IsWordChar(s[j])
  }

  /** Where the match of `p` that starts at `i` ends, if `p` matches at `i`.
      The context before `i` is the original text, as in `re.sub`. */
  function MatchAt(p: Pattern, s: string, i: nat): (r: Option<nat>)
    requires i <= |s|
    ensures r.Some? ==> i < r.value <= |s|
    ensures r.Some? ==> MayStart(p, s[i])
  {
    match p
    case PageMarker =>
      if i + 5 <= |s| && s[i..i + 5] == "Page " then
        var d1 := RunEnd(s, i + 5, Digits);
        if d1 > i + 5 && d1 + 4 <= |s| && s[d1..d1 + 4] == " of " then
          var d2 := RunEnd(s, d1 + 4, Digits);
          if d2 > d1 + 4 then Some(d2) else None
        else None
      else None
    case Timestamp =>
      if WordStart(s, i) && TimestampAt(s, i) && WordEnd(s, i + |TimestampShape|)
      then assert TimestampShape[0] == 'd'; Some(i + |TimestampShape|) else None
    case SpaceRun =>
      if i < |s| && s[i] == ' ' then Some(RunEnd(s, i, Spaces)) else None
    case BlankLine =>
      if i < |s| && s[i] == '\n' then
        match LastNewline(s, i + 1, RunEnd(s, i + 1, Whitespace))
        case Some(k) => Some(k + 1)
        case None => None
      else None
  }

  /** The first character of every match of `p` satisfies `MayStart(p, _)`. */
  predicate MayStart(p: Pattern, c: char)
  {
    match p
    case PageMarker => c == 'P'
    case Timestamp => IsDigit(c)
    case SpaceRun => c == ' '
    case BlankLine => c == '\n'
  }

  // ---------------------------------------------------------------------------
  // re.sub

  /** `re.sub(p, repl, s[i..])` with the match context taken from the whole of `s`. */
  function ReSubFrom(p: Pattern, repl: string, s: string, i: nat): string
    requires i <= |s|
    decreases |s| - i
  {
    if i == |s| then ""
    else match MatchAt(p, s, i)
      case Some(e) => repl + ReSubFrom(p, repl, s, e)
      case None => [s[i]] + ReSubFrom(p, repl, s, i + 1)
  }

  function ReSub(p: Pattern, repl: string, s: string): string
  {
    ReSubFrom(p, repl, s, 0)
  }

  /** No character of `t` can start a match of `p`. */
  predicate NoMatchStart(p: Pattern, t: string)
  {
    forall c | c in t :: !MayStart(p, c)
  }

  /** Where no match starts, one character is copied. */
  lemma CopyOne(p: Pattern, repl: string, s: string, i: nat)
    requires i < |s| && MatchAt(p, s, i).None?
    ensures ReSubFrom(p, repl, s, i) == [s[i]] + ReSubFrom(p, repl, s, i + 1)
  {
  }

  /** A stretch in which the pattern matches nowhere is copied unchanged. */
  lemma {:induction false} CopyUnmatched(p: Pattern, repl: string, s: string, i: nat, j: nat)
    requires i <= j <= |s|
    requires forall m | i <= m < j :: MatchAt(p, s, m).None?
    ensures ReSubFrom(p, repl, s, i) == s[i..j] + ReSubFrom(p, repl, s, j)
    decreases j - i
  {
    if i < j {
      CopyOne(p, repl, s, i);
      CopyUnmatched(p, repl, s, i + 1, j);
      ConsSlice(s, i, j, ReSubFrom(p, repl, s, j));
    } else {
      assert s[i..j] == [];
    }
  }

  lemma ConsSlice(s: string, i: nat, j: nat, rest: string)
    requires i < j <= |s|
    ensures [s[i]] + (s[i + 1..j] + rest) == s[i..j] + rest
  {
    assert s[i..j] == [s[i]] + s[i + 1..j];
  }

  /** A stretch in which no match can start is copied unchanged. */
  lemma CopyChunk(p: Pattern, repl: string, s: string, i: nat, j: nat)
    requires i <= j <= |s| && NoMatchStart(p, s[i..j])
    ensures ReSubFrom(p, repl, s, i) == s[i..j] + ReSubFrom(p, repl, s, j)
  {
    forall m | i <= m < j ensures MatchAt(p, s, m).None? {
      assert s[m] == s[i..j][m - i];
    }
    CopyUnmatched(p, repl, s, i, j);
  }

  /** A match at `i` is replaced and the scan resumes where the match ends. */
  lemma Replaced(p: Pattern, repl: string, s: string, i: nat, e: nat)
    requires i < |s| && MatchAt(p, s, i) == Some(e)
    ensures ReSubFrom(p, repl, s, i) == repl + ReSubFrom(p, repl, s, e)
  {
  }

  /** Where no match can start from `i` on, the rest of the text is copied. */
  lemma CopyRest(p: Pattern, repl: string, s: string, i: nat)
    requires i <= |s| && NoMatchStart(p, s[i..])
    ensures ReSubFrom(p, repl, s, i) == s[i..]
  {
    assert s[i..|s|] == s[i..];
    CopyChunk(p, repl, s, i, |s|);
    assert s[i..] + [] == s[i..];
  }

  /** A text in which no match can start is left as it is. */
  lemma NothingToReplace(p: Pattern, repl: string, s: string)
    requires NoMatchStart(p, s)
    ensures ReSub(p, repl, s) == s
  {
    assert s[0..] == s;
    CopyRest(p, repl, s, 0);
  }

  /** The run of `cls` characters from `k` ends at `j`. */
  lemma RunEndIs(s: string, k: nat, j: nat, cls: CharClass)
    requires k <= j <= |s|
    requires forall m | k <= m < j :: InClass(s[m], cls)
    requires j == |s| || !InClass(s[j], cls)
    ensures RunEnd(s, k, cls) == j
  {
  }

  /** The last newline of `s[lo..hi]` is at `k`. */
  lemma LastNewlineIs(s: string, lo: nat, hi: nat, k: nat)
    requires lo <= k < hi <= |s| && s[k] == '\n'
    requires forall m | k < m < hi :: s[m] != '\n'
    ensures LastNewline(s, lo, hi) == Some(k)
  {
  }

  // ---------------------------------------------------------------------------
  // What the page-marker and empty-line patterns match

  /** `Page \d+ of \d+` matches `s[i..e]`, its first number ending at `d`. The
      last `\d+` is greedy, so no digit follows the match. */
  predicate PageMarkerSpan(s: string, i: nat, d: nat, e: nat)
  {
    && i + 5 < d && d + 4 < e <= |s|
    && s[i..i + 5] == "Page " && (forall m | i + 5 <= m < d :: IsDigit(s[m]))
    && s[d..d + 4] == " of " && (forall m | d + 4 <= m < e :: IsDigit(s[m]))
    && (e == |s| || !IsDigit(s[e]))
  }

  lemma PageMarkerMatch(s: string, i: nat, e: nat)
    requires i <= |s|
    ensures MatchAt(PageMarker, s, i) == Some(e) <==> exists d: nat :: PageMarkerSpan(s, i, d, e)
  {
    if MatchAt(PageMarker, s, i) == Some(e) {
      assert PageMarkerSpan(s, i, RunEnd(s, i + 5, Digits), e);
    }
    if exists d: nat :: PageMarkerSpan(s, i, d, e) {
      var d: nat :| PageMarkerSpan(s, i, d, e);
      PageMarkerSpanMatches(s, i, d, e);
    }
  }

  lemma PageMarkerSpanMatches(s: string, i: nat, d: nat, e: nat)
    requires PageMarkerSpan(s, i, d, e)
    ensures MatchAt(PageMarker, s, i) == Some(e)
  {
    assert s[d] == s[d..d + 4][0] == ' ';
    RunEndIs(s, i + 5, d, Digits);
    RunEndIs(s, d + 4, e, Digits);
  }

  /** `\n\s*\n` matches `s[i..e]`: a newline, whitespace, and a newline that is
      the last one in the whitespace run after the first (`\s*` is greedy and
      gives back only what the final `\n` needs). */
  predicate BlankLineSpan(s: string, i: nat, e: nat)
  {
    && i + 2 <= e <= |s| && s[i] == '\n' && s[e - 1] == '\n'
    && (forall m | i < m < e :: IsSpace(s[m]))
    && (forall m | e <= m < |s| && (forall j | e <= j <= m :: IsSpace(s[j])) :: s[m] != '\n')
  }

  lemma BlankLineMatch(s: string, i: nat, e: nat)
    requires i <= |s|
    ensures MatchAt(BlankLine, s, i) == Some(e) <==> BlankLineSpan(s, i, e)
  {
    if MatchAt(BlankLine, s, i) == Some(e) {
      BlankLineMatchIsSpan(s, i, e);
    }
    if BlankLineSpan(s, i, e) {
      var r := RunEnd(s, i + 1, Whitespace);
      RunEndAtLeast(s, i + 1, e, Whitespace);
      forall m | e - 1 < m < r ensures s[m] != '\n' {
        assert forall j | e <= j <= m :: IsSpace(s[j]);
      }
      LastNewlineIs(s, i + 1, r, e - 1);
    }
  }

  lemma BlankLineMatchIsSpan(s: string, i: nat, e: nat)
    requires i <= |s| && MatchAt(BlankLine, s, i) == Some(e)
    ensures BlankLineSpan(s, i, e)
  {
    var r := RunEnd(s, i + 1, Whitespace);
    assert LastNewline(s, i + 1, r) == Some(e - 1);
    forall m | e <= m < |s| && (forall j | e <= j <= m :: IsSpace(s[j])) ensures s[m] != '\n' {
      RunEndAtLeast(s, i + 1, m + 1, Whitespace);
    }
  }

  /** A run of `cls` characters from `k` to `j` lies inside the longest one. */
  lemma {:induction false} RunEndAtLeast(s: string, k: nat, j: nat, cls: CharClass)
    requires k <= j <= |s|
    requires forall m | k <= m < j :: InClass(s[m], cls)
    ensures j <= RunEnd(s, k, cls)
    decreases j - k
  {
    if k < j {
      RunEndAtLeast(s, k + 1, j, cls);
    }
  }

  // ---------------------------------------------------------------------------
  // "Only deletes characters": the output is a subsequence of the input

  ghost predicate IsSubseq(a: string, b: string)
    decreases |b|
  {
    a == [] || (b != [] && ((a[0] == b[0] && IsSubseq(a[1..], b[1..])) || IsSubseq(a, b[1..])))
  }

  lemma {:induction false} SubseqPrepend(a: string, pre: string, b: string)
    requires IsSubseq(a, b)
    ensures IsSubseq(a, pre + b)
    decreases |pre|
  {
    if pre != [] {
      SubseqPrepend(a, pre[1..], b);
      assert (pre + b)[1..] == pre[1..] + b;
      assert IsSubseq(a, (pre + b)[1..]);
    } else {
      assert pre + b == b;
    }
  }

  lemma {:induction false} SubseqRefl(a: string)
    ensures IsSubseq(a, a)
    decreases |a|
  {
    if a != [] { SubseqRefl(a[1..]); }
  }

  lemma {:induction false} SubseqTrans(a: string, b: string, c: string)
    requires IsSubseq(a, b) && IsSubseq(b, c)
    ensures IsSubseq(a, c)
    decreases |c|
  {
    if a != [] {
      if b[0] == c[0] && IsSubseq(b[1..], c[1..]) {
        if a[0] == b[0] && IsSubseq(a[1..], b[1..]) {
          SubseqTrans(a[1..], b[1..], c[1..]);
        } else {
          SubseqTrans(a, b[1..], c[1..]);
        }
      } else {
        SubseqTrans(a, b, c[1..]);
      }
    }
  }

  /** The replacement is empty, or it is the single character every match of
      the pattern starts with. */
  predicate OnlyDeletes(p: Pattern, repl: string)
  {
    repl == "" || (p == SpaceRun && repl == " ") || (p == BlankLine && repl == "\n")
  }

  lemma {:induction false} ReSubFromDeletes(p: Pattern, repl: string, s: string, i: nat)
    requires i <= |s| && OnlyDeletes(p, repl)
    ensures IsSubseq(ReSubFrom(p, repl, s, i), s[i..])
    decreases |s| - i
  {
    if i < |s| {
      match MatchAt(p, s, i)
      case Some(e) =>
        var tail := ReSubFrom(p, repl, s, e);
        ReSubFromDeletes(p, repl, s, e);
        if repl == "" {
          assert s[i..] == s[i..e] + s[e..];
          SubseqPrepend(tail, s[i..e], s[e..]);
          assert repl + tail == tail;
        } else {
          assert s[i + 1..] == s[i + 1..e] + s[e..];
          SubseqPrepend(tail, s[i + 1..e], s[e..]);
          assert (repl + tail)[0] == s[i..][0];
          assert (repl + tail)[1..] == tail && s[i..][1..] == s[i + 1..];
        }
      case None =>
        var tail := ReSubFrom(p, repl, s, i + 1);
        ReSubFromDeletes(p, repl, s, i + 1);
        assert ([s[i]] + tail)[1..] == tail && s[i..][1..] == s[i + 1..];
    }
  }

  lemma ReSubDeletes(p: Pattern, repl: string, s: string)
    requires OnlyDeletes(p, repl)
    ensures IsSubseq(ReSub(p, repl, s), s)
  {
    ReSubFromDeletes(p, repl, s, 0);
    assert s[0..] == s;
  }

  // ---------------------------------------------------------------------------
  // The functions of parse_pdf.py

  /** `re.sub(pattern, '', text)`: every match of the pattern is deleted. */
  function RemoveRegex(text: string, pattern: Pattern): (r: string)
    ensures IsSubseq(r, text)
  {
    ReSubDeletes(pattern, "", text);
    ReSub(pattern, "", text)
  }

  function RemovePageNumbers(text: string): (r: string)
    ensures IsSubseq(r, text)
  {
    RemoveRegex(text, PageMarker)
  }

  /** Timestamps left behind at page breaks. */
  function RemoveTimestamps(text: string): (r: string)
    ensures IsSubseq(r, text)
  {
    RemoveRegex(text, Timestamp)
  }

  // ---------------------------------------------------------------------------
  // Markers and timestamps are deleted

  predicate AllDigits(t: string) { forall k | 0 <= k < |t| :: IsDigit(t[k]) }

  /** The text of a page marker: "Page ", a number, " of ", a number. */
  function MarkerText(n1: string, n2: string): string
  {
    "Page " + n1 + " of " + n2
  }

  lemma MarkerTextParts(n1: string, n2: string)
    ensures var m := MarkerText(n1, n2);
      && |m| == 9 + |n1| + |n2| && m[..5] == "Page " && m[5..5 + |n1|] == n1
      && m[5 + |n1|..9 + |n1|] == " of " && m[9 + |n1|..] == n2
  {
    var m := MarkerText(n1, n2);
    assert m == ("Page " + n1) + (" of " + n2);
    assert m[5 + |n1|..9 + |n1|] == (" of " + n2)[..4];
  }

  /** A page marker is deleted, and the text around it kept, when neither side
      holds a 'P' and the marker's last number ends where the text after it
      starts with something other than a digit. */
  lemma MarkerIsRemoved(a: string, n1: string, n2: string, b: string)
    requires 'P' !in a && 'P' !in b
    requires n1 != [] && AllDigits(n1) && n2 != [] && AllDigits(n2)
    requires b == [] || !IsDigit(b[0])
    ensures RemovePageNumbers(a + MarkerText(n1, n2) + b) == a + b
  {
    MarkerScan(a, n1, n2, b);
  }

  lemma MarkerScan(a: string, n1: string, n2: string, b: string)
    requires 'P' !in a && 'P' !in b
    requires n1 != [] && AllDigits(n1) && n2 != [] && AllDigits(n2)
    requires b == [] || !IsDigit(b[0])
    ensures ReSub(PageMarker, "", a + MarkerText(n1, n2) + b) == a + b
  {
    var s := a + MarkerText(n1, n2) + b;
    var i, e := |a|, |a| + |MarkerText(n1, n2)|;
    MarkerSpanIn(a, n1, n2, b);
    PageMarkerSpanMatches(s, i, |a| + 5 + |n1|, e);
    CopyChunk(PageMarker, "", s, 0, i);
    Replaced(PageMarker, "", s, i, e);
    CopyRest(PageMarker, "", s, e);
    assert "" + b == b;
  }

  /** Where the marker stands in `a + MarkerText(n1, n2) + b`. */
  lemma MarkerSpanIn(a: string, n1: string, n2: string, b: string)
    requires n1 != [] && AllDigits(n1) && n2 != [] && AllDigits(n2)
    requires b == [] || !IsDigit(b[0])
    ensures var m := MarkerText(n1, n2); var s := a + m + b;
      && s[0..|a|] == a && s[|a| + |m|..] == b
      && PageMarkerSpan(s, |a|, |a| + 5 + |n1|, |a| + |m|)
  {
    var m := MarkerText(n1, n2);
    var s := a + m + b;
    var e := |a| + |m|;
    assert s[|a|..e] == m && s[e..] == b;
    if e < |s| {
      assert s[e] == b[0];
    }
    MarkerSpanAt(s, |a|, n1, n2);
  }

  /** A marker text followed by no digit is a match of the marker pattern. */
  lemma MarkerSpanAt(s: string, i: nat, n1: string, n2: string)
    requires n1 != [] && AllDigits(n1) && n2 != [] && AllDigits(n2)
    requires i + |MarkerText(n1, n2)| <= |s| && s[i..i + |MarkerText(n1, n2)|] == MarkerText(n1, n2)
    requires i + |MarkerText(n1, n2)| == |s| || !IsDigit(s[i + |MarkerText(n1, n2)|])
    ensures PageMarkerSpan(s, i, i + 5 + |n1|, i + |MarkerText(n1, n2)|)
  {
    var m := MarkerText(n1, n2);
    var d, e := i + 5 + |n1|, i + |m|;
    MarkerTextParts(n1, n2);
    SliceOfSlice(s, i, e, 0, 5);
    SliceOfSlice(s, i, e, 5, 5 + |n1|);
    SliceOfSlice(s, i, e, 5 + |n1|, 9 + |n1|);
    SliceOfSlice(s, i, e, 9 + |n1|, |m|);
    DigitsAt(s, i + 5, n1);
    DigitsAt(s, d + 4, n2);
  }

  lemma SliceOfSlice(s: string, i: nat, e: nat, lo: nat, hi: nat)
    requires i <= e <= |s| && lo <= hi <= e - i
    ensures s[i..e][lo..hi] == s[i + lo..i + hi]
  {
    forall k | 0 <= k < hi - lo ensures s[i..e][lo..hi][k] == s[i + lo..i + hi][k] {
      assert s[i..e][lo..hi][k] == s[i..e][lo + k] == s[i + lo + k];
    }
  }

  /** The digits of `t` stand in `s` from `lo` on. */
  lemma DigitsAt(s: string, lo: nat, t: string)
    requires lo + |t| <= |s| && s[lo..lo + |t|] == t && AllDigits(t)
    ensures forall k | lo <= k < lo + |t| :: IsDigit(s[k])
  {
    forall k | lo <= k < lo + |t| ensures IsDigit(s[k]) {
      assert s[k] == t[k - lo];
    }
  }

  /** A timestamp between two `\b` boundaries is deleted, and the text around
      it kept, when neither side holds a digit. */
  lemma TimestampIsRemoved(a: string, t: string, b: string)
    requires (forall c | c in a :: !IsDigit(c)) && (forall c | c in b :: !IsDigit(c))
    requires |t| == |TimestampShape| && TimestampAt(t, 0)
    requires a == [] || !IsWordChar(a[|a| - 1])
    requires b == [] || !IsWordChar(b[0])
    ensures RemoveTimestamps(a + t + b) == a + b
  {
    TimestampScan(a, t, b);
  }

  lemma TimestampScan(a: string, t: string, b: string)
    requires (forall c | c in a :: !IsDigit(c)) && (forall c | c in b :: !IsDigit(c))
    requires |t| == |TimestampShape| && TimestampAt(t, 0)
    requires a == [] || !IsWordChar(a[|a| - 1])
    requires b == [] || !IsWordChar(b[0])
    ensures ReSub(Timestamp, "", a + t + b) == a + b
  {
    var s := a + t + b;
    var i, e := |a|, |a| + |t|;
    TimestampIn(a, t, b);
    CopyChunk(Timestamp, "", s, 0, i);
    Replaced(Timestamp, "", s, i, e);
    CopyRest(Timestamp, "", s, e);
    assert "" + b == b;
  }

  /** Where the timestamp stands in `a + t + b`, and what surrounds it. */
  lemma TimestampIn(a: string, t: string, b: string)
    requires |t| == |TimestampShape| && TimestampAt(t, 0)
    requires a == [] || !IsWordChar(a[|a| - 1])
    requires b == [] || !IsWordChar(b[0])
    ensures var s := a + t + b;
      && s[0..|a|] == a && s[|a| + |t|..] == b
      && MatchAt(Timestamp, s, |a|) == Some(|a| + |t|)
  {
    var s := a + t + b;
    var i, e := |a|, |a| + |t|;
    assert s[i..e] == t && s[e..] == b;
    assert forall k | 0 <= k < |t| :: s[i + k] == t[k];
    assert TimestampAt(s, i);
    if i > 0 {
      assert s[i - 1] == a[|a| - 1];
    }
  }

  /** No two spaces stand next to each other. */
  predicate NoDoubleSpace(s: string)
  {
    forall k | 0 <= k < |s| - 1 :: !(s[k] == ' ' && s[k + 1] == ' ')
  }

  /** No empty line: between two newlines there is always a non-whitespace character. */
  ghost predicate NoEmptyLines(s: string)
  {
    forall i, k | 0 <= i < k < |s| && s[i] == '\n' && s[k] == '\n' :: !AllSpace(s[i + 1..k])
  }

  /** Collapse runs of spaces, then remove empty lines. */
  function RemoveExtraWhitespace(text: string): (r: string)
    ensures NoDoubleSpace(r) && NoEmptyLines(r)
    ensures IsSubseq(r, text)
  {
    var collapsed := ReSub(SpaceRun, " ", text);
    var r := ReSub(BlankLine, "\n", collapsed);
    CollapsedHasNoDoubleSpace(text);
    BlankLineRemovalKeepsNoDoubleSpace(collapsed);
    BlankLineRemovalLeavesNoEmptyLine(collapsed);
    ReSubDeletes(SpaceRun, " ", text);
    ReSubDeletes(BlankLine, "\n", collapsed);
    SubseqTrans(r, collapsed, text);
    r
  }

  /** Page markers out, then timestamps, then whitespace. */
  function CleanParsedPdf(text: string): (r: string)
    ensures NoDoubleSpace(r) && NoEmptyLines(r)
    ensures IsSubseq(r, text)
  {
    var noMarkers := RemovePageNumbers(text);
    var noStamps := RemoveTimestamps(noMarkers);
    var r := RemoveExtraWhitespace(noStamps);
    SubseqTrans(noStamps, noMarkers, text);
    SubseqTrans(r, noStamps, text);
    r
  }

  /** Text with no 'P', digit, space or newline gives no pattern a place to
      start, so cleaning leaves it as it is. */
  lemma CleanKeepsPlainText(s: string)
    requires forall c | c in s :: c != 'P' && !IsDigit(c) && c != ' ' && c != '\n'
    ensures CleanParsedPdf(s) == s
  {
    assert s[0..|s|] == s;
    CopyChunk(PageMarker, "", s, 0, |s|);
    assert RemovePageNumbers(s) == s;
    CopyChunk(Timestamp, "", s, 0, |s|);
    assert RemoveTimestamps(s) == s;
    CopyChunk(SpaceRun, " ", s, 0, |s|);
    CopyChunk(BlankLine, "\n", s, 0, |s|);
    assert RemoveExtraWhitespace(s) == s;
  }

  // ---------------------------------------------------------------------------
  // Collapsing spaces

  /** Reference definition: drop every space that follows another space. */
  function DropRepeatedSpaces(s: string): string
    decreases |s|
  {
    if |s| <= 1 then s
    else if s[0] == ' ' && s[1] == ' ' then DropRepeatedSpaces(s[1..])
    else [s[0]] + DropRepeatedSpaces(s[1..])
  }

  lemma {:induction false} DropRepeatedSpacesRun(s: string, i: nat, e: nat)
    requires i < e <= |s|
    requires forall m | i <= m < e :: s[m] == ' '
    requires e == |s| || s[e] != ' '
    ensures DropRepeatedSpaces(s[i..]) == " " + DropRepeatedSpaces(s[e..])
    decreases e - i
  {
    if i + 1 < e {
      DropRepeatedSpacesRun(s, i + 1, e);
      assert s[i..][1..] == s[i + 1..];
    } else if e < |s| {
      assert s[i..][1..] == s[e..];
    }
  }

  /** The regex substitution ` +` -> ' ' agrees with the reference definition. */
  lemma {:induction false} CollapseMatchesReference(s: string, i: nat)
    requires i <= |s|
    ensures ReSubFrom(SpaceRun, " ", s, i) == DropRepeatedSpaces(s[i..])
    decreases |s| - i
  {
    if i < |s| {
      match MatchAt(SpaceRun, s, i)
      case Some(e) =>
        CollapseMatchesReference(s, e);
        DropRepeatedSpacesRun(s, i, e);
      case None =>
        CollapseMatchesReference(s, i + 1);
        assert s[i..][1..] == s[i + 1..];
        if i + 1 < |s| { assert s[i..][1] == s[i + 1]; }
    }
  }

  lemma {:induction false} DropRepeatedSpacesShape(s: string)
    ensures NoDoubleSpace(DropRepeatedSpaces(s))
    ensures s != [] ==> DropRepeatedSpaces(s) != [] && DropRepeatedSpaces(s)[0] == s[0]
    decreases |s|
  {
    if |s| > 1 {
      DropRepeatedSpacesShape(s[1..]);
    }
  }

  lemma CollapsedHasNoDoubleSpace(s: string)
    ensures NoDoubleSpace(ReSub(SpaceRun, " ", s))
  {
    CollapseMatchesReference(s, 0);
    DropRepeatedSpacesShape(s);
    assert s[0..] == s;
  }

  lemma {:induction false} DropRepeatedSpacesKeeps(s: string)
    requires NoDoubleSpace(s)
    ensures DropRepeatedSpaces(s) == s
    decreases |s|
  {
    if |s| > 1 {
      DropRepeatedSpacesKeeps(s[1..]);
      assert [s[0]] + s[1..] == s;
    }
  }

  /** Collapsing leaves a text without double spaces as it is. */
  lemma CollapseKeepsSingleSpaces(s: string)
    requires NoDoubleSpace(s)
    ensures ReSub(SpaceRun, " ", s) == s
  {
    assert s[0..] == s;
    CollapseMatchesReference(s, 0);
    DropRepeatedSpacesKeeps(s);
  }

  /** Collapsing twice gives what collapsing once gives. */
  lemma CollapseIsIdempotent(s: string)
    ensures ReSub(SpaceRun, " ", ReSub(SpaceRun, " ", s)) == ReSub(SpaceRun, " ", s)
  {
    CollapsedHasNoDoubleSpace(s);
    CollapseKeepsSingleSpaces(ReSub(SpaceRun, " ", s));
  }

  // ---------------------------------------------------------------------------
  // Removing empty lines

  /** The output of `ReSubFrom(BlankLine, ...)` starts with the character it starts
      from: a match starts with a newline and is replaced by a newline. */
  lemma {:induction false} BlankLineRemovalKeepsSpaces(s: string, i: nat)
    requires i <= |s| && NoDoubleSpace(s)
    ensures var r := ReSubFrom(BlankLine, "\n", s, i);
            NoDoubleSpace(r) && (i < |s| ==> r != [] && r[0] == s[i])
    decreases |s| - i
  {
    if i < |s| {
      match MatchAt(BlankLine, s, i)
      case Some(e) =>
        BlankLineRemovalKeepsSpaces(s, e);
      case None =>
        BlankLineRemovalKeepsSpaces(s, i + 1);
    }
  }

  lemma BlankLineRemovalKeepsNoDoubleSpace(s: string)
    requires NoDoubleSpace(s)
    ensures NoDoubleSpace(ReSub(BlankLine, "\n", s))
  {
    BlankLineRemovalKeepsSpaces(s, 0);
  }

  /** A scanner for empty lines: `pending` holds when a newline has been seen and
      nothing but whitespace since. */
  predicate NoEmptyLineFrom(s: string, pending: bool)
    decreases |s|
  {
    s == [] ||
    if s[0] == '\n' then !pending && NoEmptyLineFrom(s[1..], true)
    else NoEmptyLineFrom(s[1..], pending && IsSpace(s[0]))
  }

  /** The whitespace run starting at `e` holds no newline. */
  predicate NewlineFreeRun(s: string, e: nat)
    requires e <= |s|
  {
    LastNewline(s, e, RunEnd(s, e, Whitespace)).None?
  }

  lemma {:induction false} BlankLineRemovalScan(s: string, i: nat)
    requires i <= |s|
    ensures NoEmptyLineFrom(ReSubFrom(BlankLine, "\n", s, i), false)
    ensures NewlineFreeRun(s, i) ==> NoEmptyLineFrom(ReSubFrom(BlankLine, "\n", s, i), true)
    decreases |s| - i
  {
    if i < |s| {
      var r := ReSubFrom(BlankLine, "\n", s, i);
      match MatchAt(BlankLine, s, i)
      case Some(e) =>
        var j := RunEnd(s, i + 1, Whitespace);
        var k := LastNewline(s, i + 1, j).value;
        assert e == k + 1;
        assert RunEnd(s, e, Whitespace) == j by { RunEndFromInside(s, i + 1, e, Whitespace); }
        assert NewlineFreeRun(s, e);
        BlankLineRemovalScan(s, e);
        assert r[1..] == ReSubFrom(BlankLine, "\n", s, e);
        assert RunEnd(s, i, Whitespace) > i;
      case None =>
        BlankLineRemovalScan(s, i + 1);
        assert r[1..] == ReSubFrom(BlankLine, "\n", s, i + 1);
        if s[i] == '\n' {
          assert NewlineFreeRun(s, i + 1);
        } else if IsSpace(s[i]) && NewlineFreeRun(s, i) {
          RunEndFromInside(s, i, i + 1, Whitespace);
          assert NewlineFreeRun(s, i + 1);
        }
    }
  }

  /** Starting a run scan inside a run ends at the same place. */
  lemma {:induction false} RunEndFromInside(s: string, k: nat, m: nat, cls: CharClass)
    requires k <= m <= |s| && m <= RunEnd(s, k, cls)
    ensures RunEnd(s, m, cls) == RunEnd(s, k, cls)
    decreases |s| - m
  {
    var j := RunEnd(s, k, cls);
    if m < j {
      RunEndFromInside(s, k, m + 1, cls);
    }
  }

  /** What the scanner accepts has no empty line. */
  lemma {:induction false} NoEmptyLineFromSound(s: string, pending: bool)
    requires NoEmptyLineFrom(s, pending)
    ensures NoEmptyLines(s)
    ensures pending ==> forall k | 0 <= k < |s| && s[k] == '\n' :: !AllSpace(s[..k])
    decreases |s|
  {
    if s != [] {
      var t := s[1..];
      var pending' := if s[0] == '\n' then true else pending && IsSpace(s[0]);
      NoEmptyLineFromSound(t, pending');
      forall i, k | 0 <= i < k < |s| && s[i] == '\n' && s[k] == '\n'
        ensures !AllSpace(s[i + 1..k])
      {
        if i == 0 {
          assert t[k - 1] == '\n' && s[i + 1..k] == t[..k - 1];
        } else {
          assert t[i - 1] == '\n';
          assert t[k - 1] == '\n';
          var u, v := s[i + 1..k], t[i..k - 1];
          forall m | 0 <= m < |u| ensures u[m] == v[m] {
            assert u[m] == s[i + 1 + m];
          }
          assert u == v;
        }
      }
      if pending {
        forall k | 0 <= k < |s| && s[k] == '\n'
          ensures !AllSpace(s[..k])
        {
          assert s[0] != '\n';
          assert t[k - 1] == '\n';
          if IsSpace(s[0]) {
            assert s[..k][1..] == t[..k - 1];
          } else {
            assert s[..k][0] == s[0];
          }
        }
      }
    }
  }

  lemma BlankLineRemovalLeavesNoEmptyLine(s: string)
    ensures NoEmptyLines(ReSub(BlankLine, "\n", s))
  {
    BlankLineRemovalScan(s, 0);
    NoEmptyLineFromSound(ReSub(BlankLine, "\n", s), false);
  }
}

=== FILE: normalizer_examples.dfy ===
/** Worked examples of `clean_parsed_pdf`, including an input that shows it is
    not idempotent. Every pass is proved on its own, one match or one copied
    stretch at a time; the facts about the characters of each example are kept
    in small lemmas of their own. */
module NormalizerExamples {
  import opened Text
  import opened Normalizer

  /** Two pieces that make up `d`, followed by `c`. */
  lemma Regroup(a: string, b: string, c: string, d: string)
    requires a + b == d
    ensures a + (b + c) == d + c
  {
  }

  // ---------------------------------------------------------------------------
  // A page marker, a double space and two empty lines

  const Report := "Page 3 of 10\nHello  world\n\n\nBye"
  const ReportNoMarker := "\nHello  world\n\n\nBye"
  const ReportOneSpace := "\nHello world\n\n\nBye"
  const ReportClean := "\nHello world\nBye"

  /** The characters of `Report` that the page-marker matcher reads. */
  lemma ReportMarkerText(s: string)
    requires s == Report
    ensures s[0..5] == "Page " && s[6..10] == " of "
    ensures IsDigit(s[5]) && !IsDigit(s[6]) && IsDigit(s[10]) && IsDigit(s[11]) && !IsDigit(s[12])
    ensures s[12..] == ReportNoMarker
  {
    var head := "Page 3 of 10\n";
    assert s[..13] == head;
    assert forall k | 0 <= k < 13 :: s[k] == head[k];
    assert s[0..5] == head[0..5] == "Page ";
    assert s[6..10] == head[6..10] == " of ";
  }

  lemma NoMarkerAfterReportMarker()
    ensures NoMatchStart(PageMarker, ReportNoMarker)
  {
  }

  lemma ReportMarkerPass(s: string)
    requires s == Report
    ensures RemovePageNumbers(s) == ReportNoMarker
  {
    ReportMarkerText(s);
    RunEndIs(s, 5, 6, Digits);
    RunEndIs(s, 10, 12, Digits);
    Replaced(PageMarker, "", s, 0, 12);
    NoMarkerAfterReportMarker();
    CopyRest(PageMarker, "", s, 12);
  }

  lemma ReportTimestampPass()
    ensures RemoveTimestamps(ReportNoMarker) == ReportNoMarker
  {
    NothingToReplace(Timestamp, "", ReportNoMarker);
  }

  /** The characters of `ReportNoMarker` around its double space. */
  lemma ReportSpaceText(t: string)
    requires t == ReportNoMarker
    ensures t[0..6] == "\nHello" && t[6] == ' ' && t[7] == ' ' && t[8..] == "world\n\n\nBye"
  {
    var head := "\nHello  w";
    assert t[..9] == head;
    assert forall k | 0 <= k < 9 :: t[k] == head[k];
  }

  lemma ReportSpaceParts()
    ensures NoMatchStart(SpaceRun, "\nHello") && NoMatchStart(SpaceRun, "world\n\n\nBye")
    ensures "\nHello" + (" " + "world\n\n\nBye") == ReportOneSpace
  {
  }

  lemma ReportSpacePass(t: string)
    requires t == ReportNoMarker
    ensures ReSub(SpaceRun, " ", t) == ReportOneSpace
  {
    ReportSpaceText(t);
    ReportSpaceParts();
    assert t[8] == 'w';
    CopyChunk(SpaceRun, " ", t, 0, 6);
    RunEndIs(t, 6, 8, Spaces);
    Replaced(SpaceRun, " ", t, 6, 8);
    CopyRest(SpaceRun, " ", t, 8);
  }

  /** The characters of `ReportOneSpace` that the empty-line matcher reads. */
  lemma ReportBlankLineText(u: string)
    requires u == ReportOneSpace
    ensures u[0] == '\n' && u[1] == 'H' && u[1..12] == "Hello world"
    ensures u[12] == '\n' && u[13] == '\n' && u[14] == '\n' && u[15] == 'B' && u[15..] == "Bye"
  {
    var head := "\nHello world\n\n\nB";
    assert u[..16] == head;
    assert forall k | 0 <= k < 16 :: u[k] == head[k];
    assert u[1..12] == head[1..12];
  }

  lemma ReportBlankLineParts()
    ensures NoMatchStart(BlankLine, "Hello world") && NoMatchStart(BlankLine, "Bye")
    ensures ['\n'] + ("Hello world" + ("\n" + "Bye")) == ReportClean
  {
  }

  lemma ReportBlankLinePass(u: string)
    requires u == ReportOneSpace
    ensures ReSub(BlankLine, "\n", u) == ReportClean
  {
    ReportBlankLineText(u);
    ReportBlankLineParts();
    RunEndIs(u, 1, 1, Whitespace);
    assert MatchAt(BlankLine, u, 0) == None;
    CopyOne(BlankLine, "\n", u, 0);
    CopyChunk(BlankLine, "\n", u, 1, 12);
    RunEndIs(u, 13, 15, Whitespace);
    LastNewlineIs(u, 13, 15, 14);
    Replaced(BlankLine, "\n", u, 12, 15);
    CopyRest(BlankLine, "\n", u, 15);
  }

  /** The page marker is deleted, the double space collapsed and the empty lines removed. */
  lemma CleanReport()
    ensures CleanParsedPdf(Report) == ReportClean
  {
    ReportMarkerPass(Report);
    ReportTimestampPass();
    ReportSpacePass(ReportNoMarker);
    ReportBlankLinePass(ReportOneSpace);
  }

  // ---------------------------------------------------------------------------
  // A timestamp at the start of the text

  const Notes := "01/02/2023 14:05 notes here"
  const NotesClean := " notes here"

  lemma NotesMarkerPass()
    ensures RemovePageNumbers(Notes) == Notes
  {
    NothingToReplace(PageMarker, "", Notes);
  }

  /** The timestamp at the start of `Notes` and what follows it. */
  lemma NotesText(s: string)
    requires s == Notes
    ensures TimestampAt(s, 0) && s[16] == ' ' && s[16..] == NotesClean
  {
    var head := "01/02/2023 14:05 ";
    assert s[..17] == head;
    assert forall k | 0 <= k < 17 :: s[k] == head[k];
  }

  lemma NoTimestampInNotesClean()
    ensures NoMatchStart(Timestamp, NotesClean)
  {
  }

  lemma NotesTimestampPass(s: string)
    requires s == Notes
    ensures RemoveTimestamps(s) == NotesClean
  {
    NotesText(s);
    assert MatchAt(Timestamp, s, 0) == Some(16);
    Replaced(Timestamp, "", s, 0, 16);
    NoTimestampInNotesClean();
    CopyRest(Timestamp, "", s, 16);
  }

  lemma NotesCleanSpacing()
    ensures NoDoubleSpace(NotesClean)
    ensures NoMatchStart(BlankLine, NotesClean)
  {
  }

  /** The timestamp is deleted; the space that followed it stays. */
  lemma CleanNotes()
    ensures CleanParsedPdf(Notes) == NotesClean
  {
    NotesMarkerPass();
    NotesTimestampPass(Notes);
    NotesCleanSpacing();
    CollapseKeepsSingleSpaces(NotesClean);
    NothingToReplace(BlankLine, "\n", NotesClean);
  }

  // ---------------------------------------------------------------------------
  // A timestamp glued to a word character

  const Glued := "x01/02/2023 14:05"

  /** `\b` does not hold between "x" and "0", and no later position leaves room
      for sixteen characters, so nothing is deleted. */
  lemma GluedTimestampIsKept(s: string)
    requires s == Glued
    ensures RemoveTimestamps(s) == s
  {
    assert |s| == 17 && s[0] == 'x' && s[1] == '0';
    assert !IsDigit(s[0]) && !WordStart(s, 1);
    forall m | 0 <= m < 17 ensures MatchAt(Timestamp, s, m).None? {
      if m == 0 { assert TimestampShape[0] == 'd'; }
    }
    CopyUnmatched(Timestamp, "", s, 0, 17);
    assert s[0..17] == s;
    assert ReSubFrom(Timestamp, "", s, 17) == "";
  }

  // ---------------------------------------------------------------------------
  // Cleaning is not idempotent

  const Spaced := "Page  1 of 2"
  const Marker := "Page 1 of 2"

  /** The characters of `Spaced` that the passes read. */
  lemma SpacedText(s: string)
    requires s == Spaced
    ensures s[0..5] == "Page " && s[5] == ' ' && s[4] == ' ' && s[6] != ' '
    ensures s[0..4] == "Page" && s[1..] == "age  1 of 2" && s[6..] == "1 of 2"
  {
    var head := "Page  1";
    assert s[..7] == head;
    assert forall k | 0 <= k < 7 :: s[k] == head[k];
    assert s[0..5] == head[0..5] == "Page ";
    assert s[0..4] == head[0..4] == "Page";
  }

  lemma SpacedParts()
    ensures NoMatchStart(PageMarker, "age  1 of 2")
    ensures NoMatchStart(SpaceRun, "Page") && NoDoubleSpace("1 of 2")
    ensures "Page" + " " == "Page " && "Page " + "1 of 2" == Marker
  {
  }

  /** "Page" is followed by a space, not a digit: no marker here. */
  lemma SpacedMarkerPass(s: string)
    requires s == Spaced
    ensures RemovePageNumbers(s) == s
  {
    SpacedText(s);
    SpacedParts();
    RunEndIs(s, 5, 5, Digits);
    assert MatchAt(PageMarker, s, 0) == None;
    CopyOne(PageMarker, "", s, 0);
    CopyRest(PageMarker, "", s, 1);
    assert [s[0]] + s[1..] == s;
  }

  /** Twelve characters leave no room for a sixteen-character timestamp. */
  lemma SpacedTimestampPass(s: string)
    requires s == Spaced
    ensures RemoveTimestamps(s) == s
  {
    assert |s| == 12;
    CopyUnmatched(Timestamp, "", s, 0, 12);
    assert s[0..12] == s;
    assert ReSubFrom(Timestamp, "", s, 12) == "";
  }

  lemma SpacedSpacePass(s: string)
    requires s == Spaced
    ensures ReSub(SpaceRun, " ", s) == Marker
  {
    SpacedText(s);
    SpacedParts();
    CopyChunk(SpaceRun, " ", s, 0, 4);
    RunEndIs(s, 4, 6, Spaces);
    Replaced(SpaceRun, " ", s, 4, 6);
    var rest := ReSubFrom(SpaceRun, " ", s, 6);
    Regroup("Page", " ", rest, "Page ");
    assert ReSub(SpaceRun, " ", s) == "Page " + rest;
    CollapseMatchesReference(s, 6);
    DropRepeatedSpacesKeeps(s[6..]);
  }

  lemma MarkerChars(s: string)
    requires s == Marker
    ensures s[0..5] == "Page " && s[6..10] == " of "
    ensures IsDigit(s[5]) && !IsDigit(s[6]) && IsDigit(s[10]) && |s| == 11
  {
    assert forall k | 0 <= k < 11 :: s[k] == Marker[k];
    assert s[0..5] == Marker[0..5] == "Page ";
    assert s[6..10] == Marker[6..10] == " of ";
  }

  lemma MarkerIsDeleted(s: string)
    requires s == Marker
    ensures RemovePageNumbers(s) == ""
  {
    MarkerChars(s);
    RunEndIs(s, 5, 6, Digits);
    RunEndIs(s, 10, 11, Digits);
    Replaced(PageMarker, "", s, 0, 11);
  }

  lemma MarkerHasNoNewline()
    ensures NoMatchStart(BlankLine, Marker)
  {
  }

  /** Collapsing the double space after "Page" creates a page marker that only a
      second clean-up deletes: `clean_parsed_pdf` is not idempotent. */
  lemma CleanIsNotIdempotent()
    ensures CleanParsedPdf(Spaced) == Marker
    ensures CleanParsedPdf(CleanParsedPdf(Spaced)) == ""
    ensures CleanParsedPdf(CleanParsedPdf(Spaced)) != CleanParsedPdf(Spaced)
  {
    SpacedMarkerPass(Spaced);
    SpacedTimestampPass(Spaced);
    SpacedSpacePass(Spaced);
    MarkerHasNoNewline();
    NothingToReplace(BlankLine, "\n", Marker);
    MarkerIsDeleted(Marker);
  }
}

=== FILE: section_maps.dfy ===
/** The `text_sections` dictionary of `extract_sections_by_horizontal_lines`:
    a Python dict keeps its keys in first-insertion order, and assigning to a key
    that is already present replaces the value where it stands. Keys are the
    section titles, which may be `None`. */
module SectionMaps {
  import opened Text

  type Key = Option<string>

  /** The dict's items in iteration order. */
  type SectionMap = seq<(Key, string)>

  /** `list(m.keys())` */
  function Keys(m: SectionMap): (ks: seq<Key>)
    ensures |ks| == |m| && forall i | 0 <= i < |m| :: ks[i] == m[i].0
  {
    seq(|m|, i requires 0 <= i < |m| => m[i].0)
  }

  /** What every dict satisfies: no key appears twice. */
  predicate UniqueKeys(m: SectionMap)
  {
    forall i, j | 0 <= i < j < |m| :: m[i].0 != m[j].0
  }

  /** The position of `k` among the entries at or after `i`. */
  function IndexFrom(m: SectionMap, k: Key, i: nat): (r: Option<nat>)
    requires i <= |m|
    ensures r.Some? ==> i <= r.value < |m| && m[r.value].0 == k
    ensures r.Some? ==> forall j | i <= j < r.value :: m[j].0 != k
    ensures r.None? ==> forall j | i <= j < |m| :: m[j].0 != k
    decreases |m| - i
  {
    if i == |m| then None
    else if m[i].0 == k then Some(i)
    else IndexFrom(m, k, i + 1)
  }

  function IndexOf(m: SectionMap, k: Key): (r: Option<nat>)
    ensures r.Some? ==> r.value < |m| && m[r.value].0 == k
    ensures r.Some? ==> forall j | 0 <= j < r.value :: m[j].0 != k
    ensures r.None? ==> k !in Keys(m)
  {
    IndexFrom(m, k, 0)
  }

  /** The first entry with key `k` is what `IndexOf` finds. */
  lemma FirstIndex(m: SectionMap, k: Key, i: nat)
    requires i < |m| && m[i].0 == k
    requires forall j | 0 <= j < i :: m[j].0 != k
    ensures IndexOf(m, k) == Some(i)
  {
    assert Keys(m)[i] == k;
  }

  /** `m.get(k)`: the value stored under `k`, if any. */
  function Get(m: SectionMap, k: Key): (r: Option<string>)
    ensures r.Some? <==> k in Keys(m)
    ensures r.Some? ==> (k, r.value) in m
  {
    match IndexOf(m, k)
    case Some(i) => Some(m[i].1)
    case None => None
  }

  /** `m[k] = v`. */
  function Put(m: SectionMap, k: Key, v: string): (r: SectionMap)
    ensures Keys(r) == if k in Keys(m) then Keys(m) else Keys(m) + [k]
    ensures Get(r, k) == Some(v)
    ensures forall k' | k' != k :: Get(r, k') == Get(m, k')
    ensures forall e | e in r :: e in m || e == (k, v)
    ensures UniqueKeys(m) ==> UniqueKeys(r)
  {
    match IndexOf(m, k)
    case Some(i) =>
      var r := m[i := (k, v)];
      assert Keys(r) == Keys(m);
      FirstIndex(r, k, i);
      assert forall k' | k' != k :: Get(r, k') == Get(m, k') by {
        forall k' | k' != k ensures Get(r, k') == Get(m, k') {
          if IndexOf(m, k').Some? {
            FirstIndex(r, k', IndexOf(m, k').value);
          }
        }
      }
      r
    case None =>
      var r := m + [(k, v)];
      assert Keys(r) == Keys(m) + [k];
      FirstIndex(r, k, |m|);
      assert forall k' | k' != k :: Get(r, k') == Get(m, k') by {
        forall k' | k' != k ensures Get(r, k') == Get(m, k') {
          if IndexOf(m, k').Some? {
            FirstIndex(r, k', IndexOf(m, k').value);
          }
        }
      }
      r
  }
}

=== FILE: segmenter.dfy ===
/** `extract_sections_by_horizontal_lines` (`parse_pdf.py`, lines 53-102): walk
    the pages in order, cut each page into full-width bands at its horizontal
    lines, and store every non-empty band, cleaned and prefixed with the text
    carried over so far, under its title. The text below a page's last line is
    carried over to the next band; whatever is still carried after the last page
    is dropped. */
module Segmenter {
  import opened Text
  import opened Normalizer
  import opened Geometry
  import opened SectionMaps
  import opened Titles

  /** The loop's state: `text_sections` and `current_section`. */
  datatype Progress = Progress(sections: SectionMap, carry: string)

  // ---------------------------------------------------------------------------
  // Band geometry

  /** `previous_y` before band `i`: the page top, then the previous line's y. */
  function BandTop(r: Rect, lines: seq<Segment>, i: nat): real
    requires i <= |lines|
  {
    if i == 0 then r.y0 else StartY(lines[i - 1])
  }

  /** The clip of band `i` (line 85). */
  function BandRect(r: Rect, lines: seq<Segment>, i: nat): Rect
    requires i < |lines|
  {
    Rect(r.x0, BandTop(r, lines, i), r.x1, StartY(lines[i]))
  }

  /** The clip below the last line, or the whole page when there is none (line 96). */
  function TailRect(r: Rect, lines: seq<Segment>): Rect
  {
    Rect(r.x0, BandTop(r, lines, |lines|), r.x1, r.y1)
  }

  /** The bands and the tail span the page's width, each starting where the one
      before it ends; over sorted lines no band after the first is upside down,
      and the first is not either when the first line lies below the page top. */
  lemma BandsTilePage(r: Rect, lines: seq<Segment>)
    requires SortedByStartY(lines)
    ensures forall i | 0 <= i < |lines| ::
      BandRect(r, lines, i).x0 == r.x0 && BandRect(r, lines, i).x1 == r.x1
    ensures |lines| > 0 ==> BandRect(r, lines, 0).y0 == r.y0
    ensures |lines| > 0 && r.y0 <= StartY(lines[0]) ==> BandRect(r, lines, 0).y0 <= BandRect(r, lines, 0).y1
    ensures forall i | 0 < i < |lines| ::
      BandRect(r, lines, i).y0 == BandRect(r, lines, i - 1).y1
      && BandRect(r, lines, i).y0 <= BandRect(r, lines, i).y1
    ensures TailRect(r, lines).y0 == (if lines == [] then r.y0 else BandRect(r, lines, |lines| - 1).y1)
    ensures TailRect(r, lines).y1 == r.y1
    ensures lines == [] ==> TailRect(r, lines) == r
  {
  }

  // ---------------------------------------------------------------------------
  // The fold

  /** Lines 86-92 for one band's text. */
  function StoreBand(st: Progress, text: string): Progress
  {
    if text == "" then st
    else
      var cleaned := CleanParsedPdf(st.carry + text);
      Progress(Put(st.sections, Title(cleaned), cleaned), "")
  }

  /** An empty band changes nothing. A band with text is cleaned together with
      the carry, stored under the cleaned text's title (replacing any earlier
      value there and leaving every other title alone), and the carry is reset. */
  lemma StoreBandSpec(st: Progress, text: string)
    ensures text == "" ==> StoreBand(st, text) == st
    ensures text != "" ==>
      var cleaned := CleanParsedPdf(st.carry + text);
      var r := StoreBand(st, text);
      && r.carry == ""
      && Get(r.sections, Title(cleaned)) == Some(cleaned)
      && (forall k | k != Title(cleaned) :: Get(r.sections, k) == Get(st.sections, k))
      && Keys(r.sections) == if Title(cleaned) in Keys(st.sections) then Keys(st.sections)
                             else Keys(st.sections) + [Title(cleaned)]
  {
  }

  /** The state after the first `n` bands of `page`. */
  function LineBands(getText: Extractor, page: Page, lines: seq<Segment>, n: nat, st: Progress): Progress
    requires n <= |lines|
  {
    if n == 0 then st
    else StoreBand(LineBands(getText, page, lines, n - 1, st),
                   getText(page, Plain, BandRect(page.rect, lines, n - 1)))
  }

  /** One iteration of the page loop (lines 61-99). */
  function PageStep(getText: Extractor, st: Progress, page: Page): Progress
  {
    var lines := HorizontalLines(page);
    var after := LineBands(getText, page, lines, |lines|, st);
    Progress(after.sections, after.carry + getText(page, WithNewlines, TailRect(page.rect, lines)))
  }

  /** The state after `pages`, page by page. */
  function WalkPages(getText: Extractor, pages: seq<Page>): Progress
  {
    if pages == [] then Progress([], "")
    else PageStep(getText, WalkPages(getText, pages[..|pages| - 1]), pages[|pages| - 1])
  }

  /** The returned dict: the carry is not part of it. */
  function Sections(getText: Extractor, pages: seq<Page>): SectionMap
  {
    WalkPages(getText, pages).sections
  }

  // ---------------------------------------------------------------------------
  // The code

  /** The loop over a page's lines (lines 82-93): returns the new
      `text_sections` and `current_section`, and `previous_y` after the last line. */
  method CutBands(getText: Extractor, page: Page, lines: seq<Segment>, sections0: SectionMap, current0: string)
    returns (sections: SectionMap, current: string, previousY: real)
    ensures Progress(sections, current) == LineBands(getText, page, lines, |lines|, Progress(sections0, current0))
    ensures previousY == BandTop(page.rect, lines, |lines|)
  {
    sections, current := sections0, current0;
    var rect := page.rect;
    previousY := rect.y0;
    var i := 0;
    while i < |lines|
      invariant 0 <= i <= |lines|
      invariant previousY == BandTop(rect, lines, i)
      invariant Progress(sections, current) == LineBands(getText, page, lines, i, Progress(sections0, current0))
    {
      ghost var before := Progress(sections, current);
      var y := StartY(lines[i]);
      var clip := Rect(rect.x0, previousY, rect.x1, y);
      assert clip == BandRect(rect, lines, i);
      var text := getText(page, Plain, clip);
      if text != "" {
        var cleaned := CleanParsedPdf(current + text);
        var title := Title(cleaned);
        sections := Put(sections, title, cleaned);
        current := "";
      }
      assert Progress(sections, current) == StoreBand(before, text);
      previousY := y;
      i := i + 1;
    }
  }

  /** The body of the page loop (lines 61-99). */
  method ScanPage(getText: Extractor, page: Page, sections0: SectionMap, current0: string)
    returns (sections: SectionMap, current: string)
    ensures Progress(sections, current) == PageStep(getText, Progress(sections0, current0), page)
  {
    var rect := page.rect;
    var lines := FindHorizontalLines(page);
    var previousY;
    sections, current, previousY := CutBands(getText, page, lines, sections0, current0);
    var clip := Rect(rect.x0, previousY, rect.x1, rect.y1);
    var text := getText(page, WithNewlines, clip);
    if text != "" {
      current := current + text;
    }
  }

  method ExtractSectionsByHorizontalLines(getText: Extractor, pages: seq<Page>) returns (sections: SectionMap)
    ensures sections == Sections(getText, pages)
    ensures WellFormed(sections)
  {
    sections := [];
    var current := "";
    var p := 0;
    while p < |pages|
      invariant 0 <= p <= |pages|
      invariant Progress(sections, current) == WalkPages(getText, pages[..p])
    {
      assert pages[..p + 1][..p] == pages[..p];
      sections, current := ScanPage(getText, pages[p], sections, current);
      p := p + 1;
    }
    assert pages[..p] == pages;
    SectionsWellFormed(getText, pages);
  }

  // ---------------------------------------------------------------------------
  // What every result satisfies

  /** A value free of double spaces and empty lines, stored under its own title. */
  ghost predicate CleanEntry(e: (Key, string))
  {
    e.0 == Title(e.1) && NoDoubleSpace(e.1) && NoEmptyLines(e.1)
  }

  /** No title twice, and every entry clean. */
  ghost predicate WellFormed(m: SectionMap)
  {
    UniqueKeys(m) && forall e | e in m :: CleanEntry(e)
  }

  lemma StoreBandWellFormed(st: Progress, text: string)
    requires WellFormed(st.sections)
    ensures WellFormed(StoreBand(st, text).sections)
  {
    if text != "" {
      var cleaned := CleanParsedPdf(st.carry + text);
      var m := Put(st.sections, Title(cleaned), cleaned);
      assert CleanEntry((Title(cleaned), cleaned));
    }
  }

  lemma {:induction false} LineBandsWellFormed(getText: Extractor, page: Page, lines: seq<Segment>, n: nat, st: Progress)
    requires n <= |lines| && WellFormed(st.sections)
    ensures WellFormed(LineBands(getText, page, lines, n, st).sections)
  {
    if n > 0 {
      var prev := LineBands(getText, page, lines, n - 1, st);
      var text := getText(page, Plain, BandRect(page.rect, lines, n - 1));
      LineBandsWellFormed(getText, page, lines, n - 1, st);
      StoreBandWellFormed(prev, text);
      assert LineBands(getText, page, lines, n, st) == StoreBand(prev, text);
    }
  }

  lemma {:induction false} WalkPagesWellFormed(getText: Extractor, pages: seq<Page>)
    ensures WellFormed(WalkPages(getText, pages).sections)
  {
    if pages != [] {
      var n := |pages| - 1;
      WalkPagesWellFormed(getText, pages[..n]);
      var lines := HorizontalLines(pages[n]);
      LineBandsWellFormed(getText, pages[n], lines, |lines|, WalkPages(getText, pages[..n]));
    }
  }

  lemma SectionsWellFormed(getText: Extractor, pages: seq<Page>)
    ensures WellFormed(Sections(getText, pages))
  {
    WalkPagesWellFormed(getText, pages);
  }

  // ---------------------------------------------------------------------------
  // The carry-over

  /** Some band among the first `n` of the page has text. */
  predicate SomeBandHasText(getText: Extractor, page: Page, lines: seq<Segment>, n: nat)
    requires n <= |lines|
  {
    exists i | 0 <= i < n :: getText(page, Plain, BandRect(page.rect, lines, i)) != ""
  }

  /** Bands without text change nothing; a band with text empties the carry. */
  lemma {:induction false} LineBandsCarry(getText: Extractor, page: Page, lines: seq<Segment>, n: nat, st: Progress)
    requires n <= |lines|
    ensures LineBands(getText, page, lines, n, st).carry ==
      if SomeBandHasText(getText, page, lines, n) then "" else st.carry
    ensures !SomeBandHasText(getText, page, lines, n) ==> LineBands(getText, page, lines, n, st) == st
  {
    if n > 0 {
      LineBandsCarry(getText, page, lines, n - 1, st);
      if getText(page, Plain, BandRect(page.rect, lines, n - 1)) != "" {
        assert SomeBandHasText(getText, page, lines, n);
      } else if SomeBandHasText(getText, page, lines, n) {
        var i :| 0 <= i < n && getText(page, Plain, BandRect(page.rect, lines, i)) != "";
        assert SomeBandHasText(getText, page, lines, n - 1);
      }
    }
  }

  /** After a page, the carry is its tail text, prefixed with the old carry
      when none of its bands had text. */
  lemma PageCarry(getText: Extractor, st: Progress, page: Page)
    ensures var lines := HorizontalLines(page);
      PageStep(getText, st, page).carry ==
        (if SomeBandHasText(getText, page, lines, |lines|) then "" else st.carry)
        + getText(page, WithNewlines, TailRect(page.rect, lines))
  {
    var lines := HorizontalLines(page);
    LineBandsCarry(getText, page, lines, |lines|, st);
  }

  /** A page without horizontal lines only adds its whole text to the carry. */
  lemma PageWithoutLines(getText: Extractor, st: Progress, page: Page)
    requires HorizontalLines(page) == []
    ensures PageStep(getText, st, page) == Progress(st.sections, st.carry + getText(page, WithNewlines, page.rect))
  {
    BandsTilePage(page.rect, []);
  }

  /** Text carried past the last page is never stored: a trailing page without
      horizontal lines leaves the result as it was. */
  lemma TrailingCarryDropped(getText: Extractor, pages: seq<Page>, last: Page)
    requires HorizontalLines(last) == []
    ensures Sections(getText, pages + [last]) == Sections(getText, pages)
  {
    assert (pages + [last])[..|pages|] == pages;
    PageWithoutLines(getText, WalkPages(getText, pages), last);
  }

  /** Unruled pages feed the carry one after the other: after two of them the
      carry has grown by the first page's text, then the second's, and no
      section was stored. */
  lemma UnruledPagesFeedCarry(getText: Extractor, pages: seq<Page>, a: Page, b: Page)
    requires HorizontalLines(a) == [] && HorizontalLines(b) == []
    ensures var before := WalkPages(getText, pages);
      WalkPages(getText, pages + [a, b]) ==
        Progress(before.sections,
                 before.carry + getText(a, WithNewlines, a.rect) + getText(b, WithNewlines, b.rect))
  {
    var all := pages + [a, b];
    assert all[..|all| - 1] == pages + [a] && all[|all| - 1] == b;
    assert (pages + [a])[..|pages|] == pages;
    PageWithoutLines(getText, WalkPages(getText, pages), a);
    PageWithoutLines(getText, WalkPages(getText, pages + [a]), b);
  }

  // ---------------------------------------------------------------------------
  // An example: a cover page without lines, then a page ruled at y = 50

  const Sheet := Rect(0.0, 0.0, 100.0, 100.0)
  const Rule := Segment(Point(0.0, 50.0), Point(100.0, 50.0))
  const Cover := Page(0, Sheet, [])
  const Ruled := Page(1, Sheet, [Drawing([Line(Rule.start, Rule.end), Other])])

  /** The cover reads "Ab"; on the ruled page the band above the rule reads "c"
      and the text below it "d". */
  function SampleText(page: Page, mode: TextMode, clip: Rect): string
  {
    if page.drawings == [] then "Ab" else if clip.y1 == 50.0 then "c" else "d"
  }

  lemma RuledPageLines()
    ensures HorizontalLines(Cover) == []
    ensures HorizontalLines(Ruled) == [Rule]
  {
    var line := Line(Rule.start, Rule.end);
    var items := [line, Other];
    assert AllItems(Ruled.drawings) == items by {
      assert Ruled.drawings[..0] == [];
    }
    assert IsHorizontal(line);
    assert items[..1] == [line] && [line][..0] == [];
    assert HorizontalSegments([line]) == [Rule];
    assert HorizontalSegments(items) == [Rule];
  }

  lemma CoverStep()
    ensures WalkPages(SampleText, [Cover]) == Progress([], "Ab")
  {
    RuledPageLines();
    assert [Cover][..0] == [];
    PageWithoutLines(SampleText, Progress([], ""), Cover);
  }

  lemma StoreSample()
    ensures StoreBand(Progress([], "Ab"), "c") == Progress([(Some("Abc"), "Abc")], "")
  {
    assert "Ab" + "c" == "Abc";
    CleanKeepsPlainText("Abc");
    TitleAtIsTitle("Abc", "Abc", 0);
    assert IndexOf([], Some("Abc")) == None;
  }

  lemma RuledStep(st: Progress)
    requires st == Progress([], "Ab")
    ensures PageStep(SampleText, st, Ruled).sections == [(Some("Abc"), "Abc")]
  {
    RuledPageLines();
    assert SampleText(Ruled, Plain, BandRect(Sheet, [Rule], 0)) == "c";
    assert LineBands(SampleText, Ruled, [Rule], 1, st) == StoreBand(st, "c");
    StoreSample();
  }

  /** The cover's text is carried onto the ruled page's first band, and the
      text below the rule is carried past the last page and lost. */
  /** Two blank-bordered pages of the same size are still two pages: each reads
      its own text, and both texts are carried, in page order. */
  function NumberedText(page: Page, mode: TextMode, clip: Rect): string
  {
    if page.number == 0 then "A" else "B"
  }

  lemma TwoUnruledPagesExample()
    ensures WalkPages(NumberedText, [Page(0, Sheet, []), Page(1, Sheet, [])]).carry == "AB"
  {
    var p0, p1 := Page(0, Sheet, []), Page(1, Sheet, []);
    BlankPageHasNoLines(p0);
    BlankPageHasNoLines(p1);
    UnruledPagesFeedCarry(NumberedText, [], p0, p1);
    assert [] + [p0, p1] == [p0, p1];
  }

  lemma BlankPageHasNoLines(page: Page)
    requires page.drawings == []
    ensures HorizontalLines(page) == []
  {
    assert AllItems(page.drawings) == [];
  }

  lemma TwoPageExample()
    ensures Sections(SampleText, [Cover, Ruled]) == [(Some("Abc"), "Abc")]
  {
    assert [Cover, Ruled][..1] == [Cover];
    CoverStep();
    RuledStep(WalkPages(SampleText, [Cover]));
  }
}

=== FILE: text.dfy ===
/** Character classes and small string operations shared by the whole model.
    Python works on Unicode text; this model restricts every character class to
    ASCII (see README). */
module Text {

  datatype Option<+T> = None | Some(value: T)

  /** `\d`: an ASCII decimal digit. */
  predicate IsDigit(c: char) { '0' <= c <= '9' }

  /** `\w`: an ASCII letter, digit or underscore. */
  predicate IsWordChar(c: char) { 'a' <= c <= 'z' || 'A' <= c <= 'Z' || IsDigit(c) || c == '_' }

  /** `\s` and `str.isspace`: space, \t \n \v \f \r and the separators \x1c..\x1f. */
  predicate IsSpace(c: char) { c == ' ' || '\t' <= c <= '\r' || '\U{1C}' <= c <= '\U{1F}' }

  /** A line boundary of `str.splitlines`: \n \r \v \f \x1c \x1d \x1e. */
  predicate IsLineBreak(c: char) { '\n' <= c <= '\r' || '\U{1C}' <= c <= '\U{1E}' }

  lemma LineBreakIsSpace(c: char)
    ensures IsLineBreak(c) ==> IsSpace(c)
  {
  }

  /** Every character of `s` is whitespace (`s.strip() == ""`). */
  predicate AllSpace(s: string) { forall k | 0 <= k < |s| :: IsSpace(s[k]) }

  /** `sub` stands in `text` at position `p`. */
  predicate OccursAt(text: string, sub: string, p: nat) {
    p + |sub| <= |text| && text[p..p + |sub|] == sub
  }

  /** `text.find(sub, i)`: the first position at or after `i` where `sub` occurs. */
  function FindFrom(text: string, sub: string, i: nat): (r: Option<nat>)
    ensures r.Some? ==> i <= r.value && OccursAt(text, sub, r.value)
    ensures r.Some? ==> forall q | i <= q < r.value :: !OccursAt(text, sub, q)
    ensures r.None? ==> forall q | i <= q :: !OccursAt(text, sub, q)
    decreases |text| - i
  {
    if i + |sub| > |text| then None
    else if text[i..i + |sub|] == sub then Some(i)
    else FindFrom(text, sub, i + 1)
  }

  /** `text.find(sub)`, with `None` standing for Python's -1. */
  function Find(text: string, sub: string): (r: Option<nat>)
    ensures r.Some? ==> OccursAt(text, sub, r.value)
    ensures r.Some? ==> forall q: nat | q < r.value :: !OccursAt(text, sub, q)
    ensures r.None? ==> forall q: nat :: !OccursAt(text, sub, q)
  {
    FindFrom(text, sub, 0)
  }

  /** Python's `sub in text` on strings. */
  predicate Contains(text: string, sub: string) { Find(text, sub).Some? }

  /** The empty string is found at position 0 of every string. */
  lemma FindEmpty(text: string)
    ensures Find(text, "") == Some(0)
  {
    assert OccursAt(text, "", 0);
  }

  /** A string occurs in any string that embeds it, right after the prefix. */
  lemma OccursInfix(pre: string, sub: string, post: string)
    ensures OccursAt(pre + sub + post, sub, |pre|)
  {
    var text := pre + sub + post;
    assert text[|pre|..|pre| + |sub|] == sub;
  }

  lemma ContainsInfix(pre: string, sub: string, post: string)
    ensures Contains(pre + sub + post, sub)
  {
    OccursInfix(pre, sub, post);
  }

  /** Containment is transitive. */
  lemma ContainsTrans(a: string, b: string, c: string)
    requires Contains(a, b) && Contains(b, c)
    ensures Contains(a, c)
  {
    var p := Find(a, b).value;
    var q := Find(b, c).value;
    forall m | 0 <= m < |c| ensures a[p + q + m] == c[m] {
      assert c[m] == b[q..q + |c|][m] == b[q + m];
      assert b[q + m] == a[p..p + |b|][q + m];
    }
    assert a[p + q..p + q + |c|] == c;
    assert OccursAt(a, c, p + q);
  }

  /** `sep.join(items)`. */
  function Join(items: seq<string>, sep: string): string
  {
    if items == [] then ""
    else if |items| == 1 then items[0]
    else Join(items[..|items| - 1], sep) + sep + items[|items| - 1]
  }

  /** Joining two items or more puts the separator before the last one. */
  lemma JoinLast(items: seq<string>, sep: string)
    requires |items| >= 2
    ensures Join(items, sep) == Join(items[..|items| - 1], sep) + sep + items[|items| - 1]
  {
  }

  /** Every item occurs in the joined string. */
  lemma {:induction false} JoinContainsItem(items: seq<string>, sep: string, k: nat)
    requires k < |items|
    ensures Contains(Join(items, sep), items[k])
  {
    var n := |items| - 1;
    if n == 0 {
      ContainsInfix("", items[0], "");
      assert "" + items[0] + "" == items[0];
    } else {
      var front := Join(items[..n], sep);
      JoinLast(items, sep);
      if k == n {
        ContainsInfix(front + sep, items[n], "");
        assert front + sep + items[n] + "" == front + sep + items[n];
      } else {
        assert items[..n][k] == items[k];
        JoinContainsItem(items[..n], sep, k);
        ContainsInfix("", front, sep + items[n]);
        assert "" + front + (sep + items[n]) == front + sep + items[n];
        ContainsTrans(Join(items, sep), front, items[k]);
      }
    }
  }

  /** Every item occurs in the joined string, stated for all items at once. */
  lemma JoinContainsItems(items: seq<string>, sep: string)
    ensures forall k | 0 <= k < |items| :: Contains(Join(items, sep), items[k])
  {
    forall k | 0 <= k < |items| ensures Contains(Join(items, sep), items[k]) {
      JoinContainsItem(items, sep, k);
    }
  }

  /** Joining two non-empty lists one after the other puts the separator between
      their joins. */
  lemma {:induction false} JoinAppend(a: seq<string>, b: seq<string>, sep: string)
    requires a != [] && b != []
    ensures Join(a + b, sep) == Join(a, sep) + sep + Join(b, sep)
    decreases |b|
  {
    var ab := a + b;
    var n := |b| - 1;
    JoinLast(ab, sep);
    assert ab[..|ab| - 1] == a + b[..n] && ab[|ab| - 1] == b[n];
    if n == 0 {
      assert b[..n] == [] && a + b[..n] == a;
    } else {
      JoinAppend(a, b[..n], sep);
      JoinLast(b, sep);
    }
  }

  /** With two items or more, the separator occurs in the joined string. */
  lemma JoinContainsSeparator(items: seq<string>, sep: string)
    requires |items| >= 2
    ensures Contains(Join(items, sep), sep)
  {
    var n := |items| - 1;
    JoinLast(items, sep);
    ContainsInfix(Join(items[..n], sep), sep, items[n]);
  }

  /** `str.lower` on ASCII letters; other characters are unchanged. */
  function LowerChar(c: char): char
  {
    if 'A' <= c <= 'Z' then (c as int - 'A' as int + 'a' as int) as char else c
  }

  function Lower(s: string): (r: string)
    ensures |r| == |s| && forall k | 0 <= k < |s| :: r[k] == LowerChar(s[k])
  {
    seq(|s|, k requires 0 <= k < |s| => LowerChar(s[k]))
  }
}

=== FILE: titles.dfy ===
/** The title of a section (`parse_pdf.py`, line 90): the first line of
    `cleaned_text.splitlines()` that holds a non-whitespace character, kept
    unstripped, or `None` when there is no such line. */
module Titles {
  import opened Text

  /** End of the line starting at `i`: the next line boundary, or the end of `s`. */
  function LineEnd(s: string, i: nat): (e: nat)
    requires i <= |s|
    ensures i <= e <= |s|
    ensures forall m | i <= m < e :: !IsLineBreak(s[m])
    ensures e == |s| || IsLineBreak(s[e])
    decreases |s| - i
  {
    if i == |s| || IsLineBreak(s[i]) then i else LineEnd(s, i + 1)
  }

  /** Where the next line starts after the boundary at `e`; "\r\n" is one boundary. */
  function NextLineStart(s: string, e: nat): (n: nat)
    requires e < |s| && IsLineBreak(s[e])
    ensures e < n <= |s| && IsLineBreak(s[n - 1])
    ensures forall m | e <= m < n :: IsLineBreak(s[m])
  {
    if s[e] == '\r' && e + 1 < |s| && s[e + 1] == '\n' then e + 2 else e + 1
  }

  /** The lines of `s[i..]`, without their boundaries. */
  function SplitLinesFrom(s: string, i: nat): seq<string>
    requires i <= |s|
    decreases |s| - i
  {
    if i == |s| then []
    else
      var e := LineEnd(s, i);
      [s[i..e]] + (if e == |s| then [] else SplitLinesFrom(s, NextLineStart(s, e)))
  }

  /** `s.splitlines()`: a final boundary does not open an empty last line. */
  function SplitLines(s: string): seq<string>
  {
    SplitLinesFrom(s, 0)
  }

  /** `t` is a whole line of `s` starting at `p`: a boundary (or the start of `s`)
      before it, a boundary (or the end of `s`) after it, and none inside. */
  ghost predicate LineAt(s: string, t: string, p: nat)
  {
    && OccursAt(s, t, p)
    && (p == 0 || IsLineBreak(s[p - 1]))
    && (p + |t| == |s| || IsLineBreak(s[p + |t|]))
    && (forall m | p <= m < p + |t| :: !IsLineBreak(s[m]))
  }

  /** The text from a line start up to the next boundary is a whole line. */
  lemma FirstLineAt(s: string, i: nat)
    requires i <= |s|
    requires i == 0 || IsLineBreak(s[i - 1])
    ensures LineAt(s, s[i..LineEnd(s, i)], i)
  {
    var e := LineEnd(s, i);
    assert |s[i..e]| == e - i;
  }

  /** `t` is a whole line of `s` starting at or after `i`. */
  ghost predicate LineFrom(s: string, t: string, i: nat)
  {
    exists p: nat | i <= p :: LineAt(s, t, p)
  }

  /** Each of `lines` is a whole line of `s` starting at or after `i`. */
  ghost predicate WholeLines(s: string, lines: seq<string>, i: nat)
  {
    forall k | 0 <= k < |lines| :: LineFrom(s, lines[k], i)
  }

  /** Position `m` of `s` lies inside a line of `s` that is one of `lines`. */
  ghost predicate InListedLine(s: string, lines: seq<string>, m: nat)
  {
    exists k: nat, p: nat | k < |lines| && p <= m < p + |lines[k]| :: LineAt(s, lines[k], p)
  }

  /** The lines listed from a line start `i` on are whole lines of `s` at or after
      `i`, and there are none exactly when `i` is the end of `s`. */
  lemma {:induction false} SplitLinesFromAreLines(s: string, i: nat)
    requires i <= |s|
    requires i == 0 || IsLineBreak(s[i - 1])
    ensures SplitLinesFrom(s, i) == [] <==> i == |s|
    ensures WholeLines(s, SplitLinesFrom(s, i), i)
    decreases |s| - i
  {
    if i < |s| {
      var r := SplitLinesFrom(s, i);
      var e := LineEnd(s, i);
      assert LineFrom(s, r[0], i) by {
        FirstLineAt(s, i);
        assert r[0] == s[i..e];
      }
      if e < |s| {
        var n := NextLineStart(s, e);
        SplitLinesFromAreLines(s, n);
        assert r[1..] == SplitLinesFrom(s, n);
        forall k | 1 <= k < |r| ensures LineFrom(s, r[k], i) {
          assert r[k] == r[1..][k - 1];
          LineFromLater(s, r[k], i, n);
        }
      } else {
        assert |r| == 1;
      }
    } else {
      assert SplitLinesFrom(s, i) == [];
    }
  }

  lemma LineFromLater(s: string, t: string, i: nat, n: nat)
    requires i <= n && LineFrom(s, t, n)
    ensures LineFrom(s, t, i)
  {
  }

  /** From a line start `i` on, every character that is not a line boundary lies
      inside one of the listed lines: splitting loses no text. */
  lemma {:induction false} SplitLinesFromCover(s: string, i: nat)
    requires i <= |s|
    requires i == 0 || IsLineBreak(s[i - 1])
    ensures forall m | i <= m < |s| && !IsLineBreak(s[m]) :: InListedLine(s, SplitLinesFrom(s, i), m)
    decreases |s| - i
  {
    if i < |s| {
      var r := SplitLinesFrom(s, i);
      var e := LineEnd(s, i);
      FirstLineAt(s, i);
      assert r[0] == s[i..e];
      if e < |s| {
        var n := NextLineStart(s, e);
        var rest := SplitLinesFrom(s, n);
        assert r == [s[i..e]] + rest;
        SplitLinesFromCover(s, n);
        forall m | i <= m < |s| && !IsLineBreak(s[m]) ensures InListedLine(s, r, m) {
          if m >= e {
            var k: nat, p: nat :| k < |rest| && p <= m < p + |rest[k]| && LineAt(s, rest[k], p);
            assert r[k + 1] == rest[k];
          }
        }
      }
    }
  }

  /** `s.splitlines()` lists whole lines of `s`, none for the empty text, and
      every character that is not a line boundary lies inside a listed line. */
  lemma SplitLinesAreLines(s: string)
    ensures SplitLines(s) == [] <==> s == []
    ensures WholeLines(s, SplitLines(s), 0)
    ensures forall m | 0 <= m < |s| && !IsLineBreak(s[m]) :: InListedLine(s, SplitLines(s), m)
  {
    SplitLinesFromAreLines(s, 0);
    SplitLinesFromCover(s, 0);
  }

  /** `next((line for line in lines if line.strip()), None)` */
  function FirstNonBlank(lines: seq<string>): (r: Option<string>)
    ensures r.None? <==> forall k | 0 <= k < |lines| :: AllSpace(lines[k])
    ensures r.Some? ==> !AllSpace(r.value)
    ensures r.Some? ==> exists k | 0 <= k < |lines| :: lines[k] == r.value
                          && forall j | 0 <= j < k :: AllSpace(lines[j])
  {
    if lines == [] then None
    else if !AllSpace(lines[0]) then Some(lines[0])
    else
      var r := FirstNonBlank(lines[1..]);
      assert forall k | 1 <= k < |lines| :: lines[1..][k - 1] == lines[k];
      r
  }

  function Title(s: string): Option<string>
  {
    FirstNonBlank(SplitLines(s))
  }

  // ---------------------------------------------------------------------------
  // The same title, described without splitting the text into a list

  /** `t` is a whole line of `s`, starting at `p`, with a non-whitespace character,
      and everything before it is whitespace. */
  ghost predicate TitleAt(s: string, t: string, p: nat)
  {
    && LineAt(s, t, p)
    && !AllSpace(t)
    && AllSpace(s[..p])
  }

  lemma {:induction false} TitleFromLine(s: string, i: nat)
    requires i <= |s|
    requires i == 0 || IsLineBreak(s[i - 1])
    requires AllSpace(s[..i])
    ensures FirstNonBlank(SplitLinesFrom(s, i)).None? ==> AllSpace(s)
    ensures FirstNonBlank(SplitLinesFrom(s, i)).Some? ==>
      exists p :: TitleAt(s, FirstNonBlank(SplitLinesFrom(s, i)).value, p)
    decreases |s| - i
  {
    if i == |s| {
      assert s[..i] == s;
    } else {
      var e := LineEnd(s, i);
      var line := s[i..e];
      var rest := if e == |s| then [] else SplitLinesFrom(s, NextLineStart(s, e));
      var lines := [line] + rest;
      assert lines[1..] == rest;
      if !AllSpace(line) {
        FirstLineAt(s, i);
        assert TitleAt(s, line, i);
        assert FirstNonBlank(SplitLinesFrom(s, i)) == Some(line);
      } else if e == |s| {
        assert FirstNonBlank(rest).None?;
        BlankPrefixGrows(s, i, e);
        assert s[..e] == s;
      } else {
        var n := NextLineStart(s, e);
        BlankPrefixGrows(s, i, e);
        forall m | e <= m < n ensures IsSpace(s[m]) {
          LineBreakIsSpace(s[m]);
        }
        SpacePrefixGrows(s, e, n);
        TitleFromLine(s, n);
      }
    }
  }

  /** A blank line after a whitespace prefix keeps the prefix whitespace. */
  lemma BlankPrefixGrows(s: string, i: nat, e: nat)
    requires i <= e <= |s| && AllSpace(s[..i]) && AllSpace(s[i..e])
    ensures AllSpace(s[..e])
  {
    forall m | i <= m < e ensures IsSpace(s[m]) {
      assert s[i..e][m - i] == s[m];
    }
    SpacePrefixGrows(s, i, e);
  }

  /** Whitespace after a whitespace prefix keeps the prefix whitespace. */
  lemma SpacePrefixGrows(s: string, i: nat, e: nat)
    requires i <= e <= |s| && AllSpace(s[..i])
    requires forall m | i <= m < e :: IsSpace(s[m])
    ensures AllSpace(s[..e])
  {
    forall m | 0 <= m < e ensures IsSpace(s[..e][m]) {
      if m < i { assert s[..i][m] == s[m]; }
    }
  }

  /** A text with a title line is not all whitespace. */
  lemma TitleAtNotBlank(s: string, t: string, p: nat)
    requires TitleAt(s, t, p)
    ensures !AllSpace(s)
  {
    var k :| 0 <= k < |t| && !IsSpace(t[k]);
    assert t[k] == s[p + k];
  }

  /** A title is a whole, non-blank line with only whitespace before it. */
  lemma TitleIsFirstNonBlankLine(s: string)
    ensures Title(s).Some? ==> exists p :: TitleAt(s, Title(s).value, p)
    ensures Title(s).None? ==> AllSpace(s)
  {
    assert s[..0] == [];
    TitleFromLine(s, 0);
  }

  /** No title exactly when the whole text is whitespace. */
  lemma TitleNoneIffBlank(s: string)
    ensures Title(s).None? <==> AllSpace(s)
  {
    TitleIsFirstNonBlankLine(s);
    if Title(s).Some? {
      var p :| TitleAt(s, Title(s).value, p);
      TitleAtNotBlank(s, Title(s).value, p);
    }
  }

  lemma PrefixAllSpace(s: string, p: nat)
    requires p <= |s| && AllSpace(s[..p])
    ensures forall m | 0 <= m < p :: IsSpace(s[m])
  {
    assert forall m | 0 <= m < p :: s[..p][m] == s[m];
  }

  /** `TitleAt` pins down one line: a later start would put a line boundary
      inside the earlier line, past its non-blank character. */
  lemma TitleAtUnique(s: string, t: string, p: nat, t': string, p': nat)
    requires TitleAt(s, t, p) && TitleAt(s, t', p')
    ensures p == p' && t == t'
  {
    var k :| 0 <= k < |t| && !IsSpace(t[k]);
    var k' :| 0 <= k' < |t'| && !IsSpace(t'[k']);
    assert t[k] == s[p + k] && t'[k'] == s[p' + k'];
    PrefixAllSpace(s, p);
    PrefixAllSpace(s, p');
  }

  /** Conversely, the line `TitleAt` describes is the title. */
  lemma TitleAtIsTitle(s: string, t: string, p: nat)
    requires TitleAt(s, t, p)
    ensures Title(s) == Some(t)
  {
    TitleNoneIffBlank(s);
    var k :| 0 <= k < |t| && !IsSpace(t[k]);
    assert t[k] == s[p + k];
    TitleIsFirstNonBlankLine(s);
    var p' :| TitleAt(s, Title(s).value, p');
    TitleAtUnique(s, t, p, Title(s).value, p');
  }
}

=== FILE: upload.dfy ===
/** The request-side checks of `summarize_file` in `app/app.py`: which uploaded
    filenames are accepted (`allowed_file`, lines 15-16), the order in which the
    upload guards answer (lines 29-36 and 69-70), and the two title lists shown
    next to the summaries (lines 57-58). */
module Upload {
  import opened Text

  /** `app.config['ALLOWED_EXTENSIONS']` */
  const AllowedExtensions: set<string> := {"pdf"}

  /** The position of the last `c` among `s[..hi]`. */
  function LastIndexBefore(s: string, c: char, hi: nat): (r: Option<nat>)
    requires hi <= |s|
    ensures r.Some? ==> r.value < hi && s[r.value] == c
    ensures r.Some? ==> forall m | r.value < m < hi :: s[m] != c
    ensures r.None? <==> forall m | 0 <= m < hi :: s[m] != c
  {
    if hi == 0 then None
    else if s[hi - 1] == c then Some(hi - 1)
    else LastIndexBefore(s, c, hi - 1)
  }

  /** Where `s.rsplit(c, 1)` cuts, or `None` when `c not in s`. */
  function LastIndexOf(s: string, c: char): (r: Option<nat>)
    ensures r.Some? ==> r.value < |s| && s[r.value] == c
    ensures r.Some? ==> forall m | r.value < m < |s| :: s[m] != c
    ensures r.None? <==> c !in s
  {
    LastIndexBefore(s, c, |s|)
  }

  /** `'.' in filename and filename.rsplit('.', 1)[1].lower() in ALLOWED_EXTENSIONS`;
      `and` stops before `rsplit` when there is no dot. */
  function AllowedFile(filename: string): (ok: bool)
    ensures ok ==> '.' in filename
  {
    match LastIndexOf(filename, '.')
    case None => false
    case Some(i) => Lower(filename[i + 1..]) in AllowedExtensions
  }

  /** Accepted are exactly the names that end in a dot followed by "pdf" in any
      letter case: the extension is what follows the last dot. */
  lemma AllowedFileIffPdfExtension(filename: string)
    ensures AllowedFile(filename) <==>
      |filename| >= 4 && filename[|filename| - 4] == '.' && Lower(filename[|filename| - 3..]) == "pdf"
  {
    var n := |filename|;
    if n >= 4 && filename[n - 4] == '.' && Lower(filename[n - 3..]) == "pdf" {
      var i := LastIndexOf(filename, '.').value;
      assert i >= n - 4;
    }
  }

  /** `ext.lower() == "pdf"` exactly when `ext` is "pdf" in some mix of cases. */
  lemma LowerIsPdf(ext: string)
    ensures Lower(ext) == "pdf" <==>
      |ext| == 3 && ext[0] in "pP" && ext[1] in "dD" && ext[2] in "fF"
  {
    if |ext| == 3 {
      var low := Lower(ext);
      assert low == "pdf" <==> low[0] == 'p' && low[1] == 'd' && low[2] == 'f';
    }
  }

  /** The extension's letter case does not matter. */
  lemma UpperCaseAccepted(f: string)
    requires f == "scan.PDF"
    ensures AllowedFile(f)
  {
    AllowedFileIffPdfExtension(f);
    LowerIsPdf(f[5..]);
    assert f[4] == '.' && f[5..] == "PDF";
  }

  lemma AcceptedNames()
    ensures AllowedFile("scan.PDF") && AllowedFile("a.b.pdf") && AllowedFile(".pdf")
  {
    UpperCaseAccepted("scan.PDF");
    PdfAccepted("a.b");
    assert "a.b" + ".pdf" == "a.b.pdf";
    PdfAccepted("");
    assert "" + ".pdf" == ".pdf";
  }

  /** Any name followed by ".pdf" is accepted. */
  lemma PdfAccepted(stem: string)
    ensures AllowedFile(stem + ".pdf")
  {
    var f := stem + ".pdf";
    AllowedFileIffPdfExtension(f);
    LowerIsPdf(f[|f| - 3..]);
    assert f[|f| - 4..] == ".pdf";
    assert f[|f| - 4] == f[|f| - 4..][0];
    assert f[|f| - 3..] == f[|f| - 4..][1..];
  }

  lemma RejectedNames()
    ensures !AllowedFile("a.pdf.zip") && !AllowedFile("file.") && !AllowedFile("pdf")
  {
    AllowedFileIffPdfExtension("a.pdf.zip");
    assert Lower("zip")[0] == 'z';
    AllowedFileIffPdfExtension("file.");
    AllowedFileIffPdfExtension("pdf");
  }

  // ---------------------------------------------------------------------------
  // The upload guards

  /** How `summarize_file` answers before any parsing: a redirect back to the form,
      an HTTP error raised by `abort`, or going on with the uploaded file. */
  datatype Response = Redirect | Abort(status: nat, description: string) | Proceed(filename: string)

  /** The guards at lines 29-36 and 69-70. `filePart` is the filename of the
      request's `'file'` part, or `None` when the request has no such part. A file
      part with a non-empty filename is truthy, so `file and` does not refuse it. */
  function SummarizeGuard(filePart: Option<string>): (r: Response)
    ensures r == Redirect <==> filePart.None?
    ensures r == Abort(400, "No file selected") <==> filePart == Some("")
    ensures r == Abort(400, "Invalid file") <==>
      filePart.Some? && filePart.value != "" && !AllowedFile(filePart.value)
    ensures r.Proceed? <==> filePart.Some? && AllowedFile(filePart.value)
    ensures r.Proceed? ==> r.filename == filePart.value
  {
    match filePart
    case None => Redirect
    case Some(name) =>
      if name == "" then Abort(400, "No file selected")
      else if AllowedFile(name) then Proceed(name)
      else Abort(400, "Invalid file")
  }

  /** Only a file whose name ends in ".pdf" (any case) reaches the parser. */
  lemma ProceedOnlyWithPdf(filePart: Option<string>)
    requires SummarizeGuard(filePart).Proceed?
    ensures var f := SummarizeGuard(filePart).filename;
      |f| >= 4 && f[|f| - 4] == '.' && Lower(f[|f| - 3..]) == "pdf"
  {
    AllowedFileIffPdfExtension(filePart.value);
  }

  // ---------------------------------------------------------------------------
  // The title lists

  /** `', '.join(list(summaries.keys()))`: the summarised titles in dict order.
      Every summarised title occurs in the result. */
  function TitlesSummarized(summaryTitles: seq<string>): (r: string)
    ensures forall k | 0 <= k < |summaryTitles| :: Contains(r, summaryTitles[k])
  {
    JoinContainsItems(summaryTitles, ", ");
    Join(summaryTitles, ", ")
  }

  /** The summaries of two runs of titles, one after the other, are joined by ", ". */
  lemma TitlesSummarizedAppend(a: seq<string>, b: seq<string>)
    requires a != [] && b != []
    ensures TitlesSummarized(a + b) == TitlesSummarized(a) + ", " + TitlesSummarized(b)
  {
    JoinAppend(a, b, ", ");
  }

  /** `[item for item in list(sections.keys()) if item not in titles_summarized]`:
      the section titles, in order, that do not occur in `summarized`. A `None`
      title makes `in` raise a `TypeError`, modelled as `None`. */
  function KeptTitles(sectionTitles: seq<Option<string>>, summarized: string): (r: Option<seq<string>>)
    ensures r.None? <==> None in sectionTitles
    ensures r.Some? ==> forall t | t in r.value :: Some(t) in sectionTitles && !Contains(summarized, t)
    ensures r.Some? ==> forall t | Some(t) in sectionTitles && !Contains(summarized, t) :: t in r.value
  {
    if sectionTitles == [] then Some([])
    else
      var rest := KeptTitles(sectionTitles[1..], summarized);
      assert sectionTitles == [sectionTitles[0]] + sectionTitles[1..];
      match sectionTitles[0]
      case None => None
      case Some(t) =>
        if rest.None? then None
        else if Contains(summarized, t) then rest
        else Some([t] + rest.value)
  }

  /** Kept titles come in section order: keeping distributes over concatenation. */
  lemma {:induction false} KeptTitlesAppend(a: seq<Option<string>>, b: seq<Option<string>>, summarized: string)
    requires None !in a && None !in b
    ensures KeptTitles(a + b, summarized) ==
      Some(KeptTitles(a, summarized).value + KeptTitles(b, summarized).value)
  {
    if a == [] {
      assert a + b == b;
      assert KeptTitles(a, summarized).value + KeptTitles(b, summarized).value == KeptTitles(b, summarized).value;
    } else {
      assert (a + b)[0] == a[0] && (a + b)[1..] == a[1..] + b;
      KeptTitlesAppend(a[1..], b, summarized);
      var t := a[0].value;
      if !Contains(summarized, t) {
        assert [t] + (KeptTitles(a[1..], summarized).value + KeptTitles(b, summarized).value)
          == ([t] + KeptTitles(a[1..], summarized).value) + KeptTitles(b, summarized).value;
      }
    }
  }

  /** The result of line 58: the kept titles joined by ", ", or the `TypeError`
      it raises. Every section title missing from the summarised string is
      listed. */
  function TitlesIgnored(sectionTitles: seq<Option<string>>, summarized: string): (r: Option<string>)
    ensures r.None? <==> None in sectionTitles
    ensures r.Some? ==>
      forall t | Some(t) in sectionTitles && !Contains(summarized, t) :: Contains(r.value, t)
  {
    match KeptTitles(sectionTitles, summarized)
    case None => None
    case Some(kept) =>
      JoinContainsItems(kept, ", ");
      assert forall t | t in kept :: exists k | 0 <= k < |kept| :: kept[k] == t;
      Some(Join(kept, ", "))
  }

  /** A title that was summarised is never listed as ignored. */
  lemma SummarizedNotIgnored(summaryTitles: seq<string>, sectionTitles: seq<Option<string>>, k: nat)
    requires k < |summaryTitles|
    requires None !in sectionTitles
    ensures summaryTitles[k] !in KeptTitles(sectionTitles, TitlesSummarized(summaryTitles)).value
  {
    JoinContainsItem(summaryTitles, ", ", k);
  }

  /** A section title that occurs inside some summarised title is hidden too,
      although it was not summarised itself. */
  lemma SubstringOfSummarizedIsHidden(summaryTitles: seq<string>, sectionTitles: seq<Option<string>>,
                                      k: nat, t: string)
    requires k < |summaryTitles| && Contains(summaryTitles[k], t)
    requires None !in sectionTitles
    ensures t !in KeptTitles(sectionTitles, TitlesSummarized(summaryTitles)).value
  {
    JoinContainsItem(summaryTitles, ", ", k);
    ContainsTrans(TitlesSummarized(summaryTitles), summaryTitles[k], t);
  }

  /** With two summaries or more, a section titled ", " is hidden by the separator. */
  lemma SeparatorIsHidden(summaryTitles: seq<string>, sectionTitles: seq<Option<string>>)
    requires |summaryTitles| >= 2
    requires None !in sectionTitles
    ensures ", " !in KeptTitles(sectionTitles, TitlesSummarized(summaryTitles)).value
  {
    JoinContainsSeparator(summaryTitles, ", ");
  }

  lemma KeptMedical()
    ensures KeptTitles([Some("Medical")], "Medical") == Some([])
  {
    ContainsInfix("", "Medical", "");
    assert "" + "Medical" + "" == "Medical";
    assert [Some("Medical")][1..] == [];
  }

  lemma KeptIntake()
    ensures KeptTitles([Some("Intake"), Some("Medical")], "Medical") == Some(["Intake"])
  {
    assert !Contains("Medical", "Intake") by {
      var text := "Medical";
      assert text[0..6][0] == 'M' && text[1..7][0] == 'e';
      assert !OccursAt(text, "Intake", 0) && !OccursAt(text, "Intake", 1);
    }
    var titles := [Some("Intake"), Some("Medical")];
    assert titles[0] == Some("Intake") && titles[1..] == [Some("Medical")];
    KeptMedical();
    assert KeptTitles(titles, "Medical") == Some(["Intake"] + []);
    assert ["Intake"] + [] == ["Intake"];
  }

  /** "Med" was not summarised but is hidden because "Medical" was. */
  lemma TitlesExample()
    ensures TitlesIgnored([Some("Med"), Some("Intake"), Some("Medical")], TitlesSummarized(["Medical"]))
      == Some("Intake")
  {
    var titles := [Some("Med"), Some("Intake"), Some("Medical")];
    assert TitlesSummarized(["Medical"]) == "Medical";
    ContainsInfix("", "Med", "ical");
    assert "" + "Med" + "ical" == "Medical";
    KeptIntake();
    assert titles[1..] == [Some("Intake"), Some("Medical")];
    assert KeptTitles(titles, "Medical") == Some(["Intake"]);
  }
}
